=== FILE: README.md ===
# JSPython dispatcher and line protocol, in Dafny

This project models the core of JSPython: a Node host that runs Python scripts
in one supervised worker process and talks to it through a line protocol over
stdin/stdout.

- **Dispatcher** (`src/js-python.ts`, class `JSPython`). This is a sequential
  state machine over an immutable `State` record with these fields:
  - `queue`: tasks waiting, each with its arguments and the caller that awaits it;
  - `ready`: whether the worker has announced itself;
  - `threadCount`: tasks in flight;
  - `resolveMap`: a map from correlation id to caller;
  - `maxThreads`: the bound on tasks in flight.

  JavaScript runs one handler at a time, so each handler is one atomic step of
  `Dispatcher.Step`:
  - a `runTask` call (`Submit`);
  - one chunk of worker output (`Receive`);
  - the worker's exit (`Exit`).

  The code that runs after an `await` belongs to the step that resolves it. So
  a `response` line also runs the tail of `doRunTask`: it decrements the count,
  deletes the id, and re-submits the queue head through `runTask`. A step's
  effects are:
  - the request lines written to the worker;
  - the results delivered to callers;
  - whether the worker is respawned.
- **Line codec.** The host writes `id|a1|...|an` and a newline. On each chunk it
  reads, it trims, splits on `|`, and takes id, type and data. The worker
  (`py-test.py`) does the following:
  - reads characters until its buffer ends in a newline;
  - strips the line, splits it, and pops the id;
  - answers `id|response|pong|<second argument>`;
  - announces itself with `0|ready|`.

  JavaScript's `trim` and Python's `strip` use different sets of whitespace.
  Both sets are modelled.

The modules are:
- `Text`: split, join and trim;
- `Ids`: the fresh correlation id;
- `Protocol`: both ends of the line codec;
- `Dispatcher`: the state machine;
- `Bags`: the multiset of a map's values;
- `Properties`: invariants, conservation and end-to-end exchanges;
- `ReadyFix`: the ready-loop finding below.

The model follows the code as written:
- A `response` whose id has no resolver calls `undefined`
  (src/js-python.ts:73-74). It is modelled as the fault
  `UnresolvedResponse`.
- `handleCrash` ignores the exit code and always respawns the worker
  (src/js-python.ts:84-87).
- The wait queue is not FIFO in general. When `runTask` is blocked, it pushes
  the task to the tail (src/js-python.ts:31-37). So a promotion made at
  capacity rotates the queue (`Properties.ReadyRotatesWhenFull`).

## Model

| member | source | states |
|---|---|---|
| Text.Split | src/js-python.ts:58 | splitting on the bar always yields at least one field, and no field contains the separator |
| Text.JoinSplit | src/js-python.ts:58 | joining the fields of a split with the same separator gives back the original string |
| Text.SplitJoin | py-test.py:36 | splitting a join of at least one field, none containing the separator, gives back exactly those fields |
| Text.Trim | src/js-python.ts:57 | the trimmed string has no whitespace at either end, and a string without such whitespace is left unchanged |
| Text.TrimPeels | src/js-python.ts:57 | trimming removes only whitespace and only at the ends: the result is a contiguous slice of the input, with whitespace before and after it |
| Ids.FreshId | src/js-python.ts:91 | the new correlation id is a non-empty lower-case hex string that is not among the ids still awaiting a response |
| Protocol.EncodeRequest | src/js-python.ts:92 | the request line ends in a newline, and when no field contains a bar, the line before its newline splits back into the id followed by the arguments |
| Protocol.DecodeHost | src/js-python.ts:57-58 | a trimmed line without a bar leaves the type undefined and the whole line as id; otherwise id, type and data joined with bars give back the trimmed line, and none of id, type or any datum contains a bar, so the type is the second field and the data are the rest |
| Protocol.Feed | py-test.py:32-35 | a character completes a line exactly when it is a newline; the line is the buffer without that newline, and the buffer starts over empty; any other character is appended |
| Protocol.Frame | py-test.py:29-35 | the read loop loses and invents nothing: the lines it produces, each followed by a newline, and then the leftover buffer spell the input; no line and no leftover holds a newline |
| Protocol.FrameNoNewline | py-test.py:31-35 | input without a newline only grows the buffer and produces no line |
| Protocol.FrameThroughNewline | py-test.py:33-35 | the first newline ends the current line, and reading resumes from an empty buffer |
| Protocol.FrameLines | py-test.py:31-35 | newline-free lines written one after another are read back as exactly those lines |
| Protocol.ParseRequest | py-test.py:36-37 | the popped id followed by the remaining fields, joined with bars, gives back the stripped line; neither the id nor any remaining field contains a bar, so each argument is one field |
| Protocol.ResponseLine | py-test.py:18-20 | the printed reply ends in a newline, and with at least one datum it is the id, `response` and the data joined by bars, as the host splits it |
| Protocol.Respond | py-test.py:13-22 | a request is answered exactly when it has at least two fields after the id; with fewer fields, `kwargs[1]` fails and nothing is printed; when that reply is intact (no field holds a bar or a newline, and the joined reply neither starts nor ends with JavaScript whitespace), the host decodes it as a `response` to that id carrying `pong` and the second field |
| Protocol.Replies | py-test.py:31-39 | each framed line gets at most one reply |
| Protocol.Serve | py-test.py:29-39 | text the host writes without a newline is only buffered and gets no reply |
| Protocol.ServeLines | py-test.py:31-39 | newline-terminated lines written to the worker are answered one by one, in order, as each framed line is answered |
| Protocol.FrameOneLine | py-test.py:32-35 | one newline-free line followed by a newline is framed as that single line, leaving an empty buffer |
| Protocol.ParseJoined | py-test.py:36-37 | fields without bars or newlines whose join has no Python whitespace at its two ends are parsed back into the first field and the rest |
| Protocol.RequestRoundTrip | py-test.py:32-38 | a request line the host writes, for an id and arguments free of bars and newlines whose joined line has no Python whitespace at its two ends, is framed as one line and parsed back into the same id and arguments |
| Protocol.InnerPaddingKept | py-test.py:36 | `strip` touches only the ends of the line: an argument ending in a blank inside the line comes back with its blank |
| Protocol.ResponseRoundTrip | py-test.py:19-20 | for an id and at least one data field, none holding a bar or a newline, whose joined reply neither starts nor ends with JavaScript whitespace, the response line the worker prints decodes at the host to the same id, type `response` and the same data |
| Protocol.RequestIntact | src/js-python.ts:92 | a request whose id is a field and whose arguments hold no bar or newline and do not end with Python whitespace meets the conditions under which the worker parses it back unchanged |
| Protocol.PongIntact | py-test.py:15-20 | the `pong` reply to a field id is intact for the host when the echoed argument holds no bar or newline and does not end with JavaScript whitespace |
| Protocol.DecodeJoined | src/js-python.ts:57-58 | at least two fields without bars or newlines, whose join has no JavaScript whitespace at its two ends, joined and ended by a newline, decode to the first field as id, the second as type and the rest as data |
| Protocol.ReadyLineDecodes | py-test.py:27 | the readiness line decodes to id `0`, type `ready` and data `[""]` |
| Protocol.WorkerAnswers | py-test.py:15 | for an id and arguments holding no bar or newline whose joined request line has no Python whitespace at either end: with at least two arguments the worker prints exactly one reply, which the host decodes as `response` with `["pong", second argument]` whenever that reply is intact; with fewer arguments there is no reply at all |
| Dispatcher.Start | src/js-python.ts:16-28 | a new instance is consistent: not ready, nothing queued, a task count of 0 and an empty id map (nothing in flight), and its worker spawned |
| Dispatcher.RunTask | src/js-python.ts:30-39 | when at capacity or not ready, the task is appended to the queue tail and nothing else changes; otherwise the count rises by exactly one, one fresh hex id not yet in the map is mapped to the caller, and exactly one request with the task's arguments is written |
| Dispatcher.Drain | src/js-python.ts:62-69 | the ready loop, with its bound re-read each iteration, takes each task and either dispatches it or puts it back in the queue; the count rises by one per request written; nothing is written unless the worker is ready; which tasks the requests carry and which caller each is registered to is stated by `Properties.DrainSendsHeads`, `Properties.DrainKeepsEntries` and `Properties.DrainFromIdleRegisters` |
| Dispatcher.Promote | src/js-python.ts:40-43 | with something queued, the head is shifted off and submitted again: dispatched with its arguments under a fresh hex id, one not already in flight, mapped to its caller when a slot is free and the worker is ready, and otherwise moved to the tail; with nothing queued nothing changes |
| Dispatcher.Complete | src/js-python.ts:72-75 | an unknown id is a fault; a known id delivers the data to its own caller, frees the slot and the id, and re-submits the queue head, which is dispatched exactly when a slot is free and the worker is ready, and otherwise moved to the tail |
| Dispatcher.HandleLine | src/js-python.ts:56-82 | a `ready` line sets ready, delivers nothing, and accounts for every task it dispatches; a `response` line is a completion of its id; any other line changes nothing |
| Dispatcher.HandleCrash | src/js-python.ts:84-87 | whatever the exit code, the worker is marked not ready and respawned; queue, count, id map and bound are kept |
| Dispatcher.Step | src/js-python.ts:30-101 | only a line from the worker can fault; the bound never changes; the worker is respawned exactly on an exit; only a `response` line hands a result to a caller |
| Properties.CompleteKeepsInv | src/js-python.ts:97-98 | a completion keeps the count within the bound and equal to the number of live ids |
| Properties.RunTaskKeepsInv | src/js-python.ts:90-95 | a dispatch keeps the count within the bound and equal to the number of live ids |
| Properties.StepPreservesInv | src/js-python.ts:30-101 | every event keeps `0 <= threadCount <= maxThreads`, one live id per task in flight, and well-formed ids |
| Properties.SendOnlyWhenReady | src/js-python.ts:31 | a step that writes a request leaves the worker ready, and the worker was ready already or the step was its ready line |
| Properties.Run | src/js-python.ts:30-101 | any sequence of events from a consistent state that does not fault stays consistent and keeps the bound |
| Properties.RunFromStart | src/js-python.ts:20-28 | from a new instance, every run of events that does not fault keeps the count within the bound and equal to the number of live ids |
| Properties.RunTaskConserves | src/js-python.ts:31-39 | a submitted task's caller is added to the pending callers, whether it is queued or dispatched |
| Properties.DrainConserves | src/js-python.ts:62-69 | the ready loop neither loses nor duplicates a pending caller |
| Properties.CompleteConserves | src/js-python.ts:97-98 | a completion removes exactly the completed caller from the pending callers |
| Properties.StepConserves | src/js-python.ts:30-101 | on every event, the pending callers after the step plus the callers answered equal the pending callers before plus the one submitted |
| Properties.DrainFromIdle | src/js-python.ts:62-69 | from an idle worker, the ready loop dispatches queue heads, in order, until half of the initially queued tasks (rounded up) or the bound is reached |
| Properties.DrainSendsHeads | src/js-python.ts:62-69 | from any state, slots partly held or not, the requests the ready loop writes are for the queue's first tasks in order: each carries its task's arguments and its id is registered to that task's caller |
| Properties.HeadThenHeads | src/js-python.ts:67-68 | an iteration with a free slot dispatches the head, and together with the requests the rest of the loop writes for the following heads this is still a run of requests for the heads |
| Properties.ReadySendsHeads | src/js-python.ts:59-69 | a ready line from any consistent state sets ready, writes requests only for the queue's first tasks in order, each registered to its own caller, and takes no more tasks than there are free slots |
| Properties.PartlyHeldReady | src/js-python.ts:62-69 | with two slots, one held, and A, B, C queued, the ready loop dispatches A, moves B to the tail, and leaves C, B waiting |
| Properties.DrainKeepsEntries | src/js-python.ts:62-69 | the ready loop never removes or remaps an id already in flight: every caller waiting for an answer stays registered under its id |
| Properties.DrainFromIdleRegisters | src/js-python.ts:62-69 | from an idle worker, the id of the j-th request the ready loop writes is registered, when the loop ends, to the caller of the j-th task queued |
| Properties.IdleRegisters | src/js-python.ts:67-68 | one dispatching iteration registers the head's fresh id to the head's caller, and the rest of the loop keeps that registration |
| Properties.ReadyFromIdle | src/js-python.ts:59-69 | from an idle worker with L tasks queued, a ready line dispatches exactly min(maxThreads, ceil(L/2)) tasks from the head, in order, and registers each request's id to the caller of the task it carries, so each reply goes back to its own task |
| Properties.DrainKeepsInv | src/js-python.ts:62-69 | the ready loop keeps the count within the bound and equal to the number of live ids |
| Properties.DrainRotates | src/js-python.ts:31-37 | at capacity, every remaining iteration of the ready loop writes nothing and moves the head to the tail, so the queue is rotated by the number of iterations left |
| Properties.ReadyRotatesWhenFull | src/js-python.ts:59-69 | at capacity, any ready line writes nothing, sets ready, and rotates the queue by min(maxThreads, L): that many tasks move from head to tail |
| Properties.RotationExample | src/js-python.ts:31-37 | two slots held and A, B, C queued: after the ready line the queue is C, A, B, so C is promoted before A and B |
| Properties.ExitRestarts | src/js-python.ts:84-87 | on exit, whatever the code, the worker is not ready and is respawned; queue, count and id map are unchanged |
| Properties.CrashKeepsSlots | src/js-python.ts:84-87 | an exit frees no slot: with every slot held, the exit and any ready line from the new worker write nothing, and a further submission joins the queue's tail |
| Properties.AnswerDelivered | src/js-python.ts:72-75 | a response line for an id in flight hands its data to that id's caller and frees its slot |
| Properties.HexIdIsField | src/js-python.ts:91 | a hex id travels through the protocol unchanged |
| Properties.TaskAnswered | py-test.py:13-20 | a request written under a hex id, with arguments holding no bar or newline and without trailing whitespace that either end trims, gets exactly one reply when it has two or more arguments, and that reply decodes at the host as `response` to the same id with `["pong", second argument]`; with fewer arguments there is no reply |
| Properties.ResponseReachesCaller | src/js-python.ts:92 | a task dispatched on submission (a free slot and a ready worker), whose arguments hold no bar or newline and do not end with Python whitespace and whose echoed argument does not end with JavaScript whitespace, is answered by the worker, and its reply delivers `["pong", second argument]` to the task's own caller; with fewer than two arguments the worker replies nothing |
| ReadyFix.ReadyLeavesSlotFree | src/js-python.ts:62-69 | as written, three slots and four queued tasks: the ready line dispatches two tasks and leaves a slot free while two tasks wait |
| ReadyFix.DrainFixed | src/js-python.ts:62-69 | the loop with its trip count fixed on entry keeps the bookkeeping consistent and accounts for every task it takes |
| ReadyFix.OnReadyFixed | src/js-python.ts:59-69 | the corrected ready branch sets ready and keeps the bookkeeping consistent |
| ReadyFix.DrainFixedRun | src/js-python.ts:62-69 | with n free slots and n tasks queued, n corrected iterations dispatch the first n tasks in order |
| ReadyFix.DrainFixedCount | src/js-python.ts:62-69 | n corrected iterations dispatch min(free slots, n) tasks |
| ReadyFix.ReadyFixedFromIdle | src/js-python.ts:59-69 | corrected, from an idle worker: exactly min(maxThreads, L) tasks are dispatched, head first, and afterwards nothing waits or every slot is taken |
| ReadyFix.ReadyFixedFillsFreeSlots | src/js-python.ts:59-69 | corrected, from any consistent state: one task per free slot is dispatched, and afterwards nothing waits or every slot is taken |
| ReadyFix.FixedLoopRotatesRest | src/js-python.ts:62-69 | corrected, two slots with one held and A, B, C queued: A is dispatched and the queue becomes C, B, because the loop still takes min(maxThreads, L) tasks |
| ReadyFix.ReadyFixedFillsSlots | src/js-python.ts:62-69 | corrected, three slots and four queued tasks: three tasks are dispatched and one waits |
| ReadyFix.HandleLineFixed | src/js-python.ts:56-82 | line handling with the corrected loop: a ready line leaves nothing waiting or every slot taken; every other line is handled as in `Dispatcher.HandleLine` |

## Left out

- Process spawning, pipes, stdin write callbacks and error listeners (src/js-python.ts:48-54, 103-120). These are operating-system I/O. A write is an emitted request and `startPython` is a respawn flag. A write failure is not modelled.
- Interleaving between `await` points (src/js-python.ts:39, 92, 94). Each handler runs atomically, and a write completes within the step that issues it.
- Chunking of the worker's output (src/js-python.ts:56-58). Every `data` event is taken to be exactly one line. Partial and merged chunks are not modelled.
- Ids.FreshId: the id is not a uniformly random 32-digit hex string (src/js-python.ts:91). A deterministic hex string not among the live ids stands in for it, and its length varies.
- Ids that name a property of `Object.prototype` (for example `constructor`). The host's map lookup would find these; the model's map holds only ids it was given.
- Worker threads and `time.sleep` (py-test.py:3-16, 26). These are concurrency and timing. The worker's replies are taken in request order.
- Python's `KeyboardInterrupt` handling (py-test.py:42-44) and the worker's `Task` thread class constructor (py-test.py:5-11).
- The static instance cache, logging and the `log` flag, and the example call site (src/js-python.ts:6-12, 61, 78, 93, 99, 124-129).
- `maxThreads` is a natural number. The host accepts any JavaScript number, including fractions and negative values.
- Character encoding. The host writes UTF-8 (src/js-python.ts:105) and decodes each stdout chunk with `Buffer.toString` (src/js-python.ts:57), while the worker decodes stdin with its locale's encoding (py-test.py:32). The model takes both ends to see the same sequence of characters. A non-ASCII argument under a non-UTF-8 locale, which would make the worker raise `UnicodeDecodeError` and exit, is not modelled.
- A `null` exit code, which is passed to `handleCrash` like any other; the model's exit code is an integer that is ignored.
- Protocol.Replies: states only that there is at most one reply per line. What each reply is, is stated by `Protocol.Respond` and `Protocol.WorkerAnswers`.

## Findings

| source | as written | input that shows it | evidently intended | confidence | as-written member | corrected member |
|---|---|---|---|---|---|---|
| src/js-python.ts:62-69 | the ready loop compares its counter with `min(maxThreads, queue.length)` re-read after every `shift`, so from an idle worker with L queued tasks it dispatches only min(maxThreads, ceil(L/2)) | `maxThreads` 3, four tasks queued, worker idle, then the ready line: two tasks are dispatched, and a slot stays free while two tasks wait until some task completes | fill every free slot: dispatch min(free slots, L) tasks, so that afterwards nothing waits or every slot is taken. The corrected loop still runs min(maxThreads, L) iterations, so once the slots fill part-way it moves the remaining taken tasks to the tail: two slots, one held, and A, B, C queued give A dispatched and C, B waiting | high (not executed) | ReadyFix.ReadyLeavesSlotFree | ReadyFix.ReadyFixedFillsFreeSlots |

The as-written loop stays in `Dispatcher.Step`, because the model describes
the program as it behaves. `ReadyFix.HandleLineFixed` is the line handler with
the corrected loop (`ReadyFix.OnReadyFixed`).

=== FILE: bags.dfy ===
/** Map values counted with multiplicity. */
module Bags {

  /** The values of `m`, each as often as it is stored under some key. */
  ghost function Values<K, V>(m: map<K, V>): multiset<V>
    decreases |m|
  {
    if |m| == 0 then multiset{}
    else
      assert m.Keys != {};
      var k :| k in m;
      assert (m - {k}).Keys == m.Keys - {k};
      multiset{m[k]} + Values(m - {k})
  }

  lemma RemoveShrinks<K, V>(m: map<K, V>, k: K)
    requires k in m
    ensures |m - {k}| == |m| - 1
  {
    assert (m - {k}).Keys == m.Keys - {k};
  }

  /** Removing two distinct keys in either order leaves the same map. */
  lemma RemoveBoth<K, V>(m: map<K, V>, j: K, k: K)
    requires j in m && k in m && j != k
    ensures k in m - {j} && (m - {j})[k] == m[k] && |m - {j}| < |m|
    ensures j in m - {k} && (m - {k})[j] == m[j] && |m - {k}| < |m|
    ensures (m - {j}) - {k} == (m - {k}) - {j}
  {
    RemoveShrinks(m, j);
    RemoveShrinks(m, k);
    var both := m - {j, k};
    assert (m - {j}) - {k} == both;
    assert (m - {k}) - {j} == both;
  }

  /** Removing any one key removes exactly its value, whichever key the
      definition happens to take first. */
  lemma {:induction false} ValuesRemove<K, V>(m: map<K, V>, k: K)
    requires k in m
    ensures Values(m) == multiset{m[k]} + Values(m - {k})
    decreases |m|
  {
    assert m.Keys != {};
    var j :| j in m && Values(m) == multiset{m[j]} + Values(m - {j});
    if j != k {
      RemoveBoth(m, j, k);
      var mj, mk := m - {j}, m - {k};
      ValuesRemove(mj, k);
      ValuesRemove(mk, j);
      var rest := Values(mj - {k});
      assert rest == Values(mk - {j});
      var a, b := multiset{m[j]}, multiset{m[k]};
      assert Values(m) == a + (b + rest);
      assert Values(mk) == a + rest;
      assert a + (b + rest) == b + (a + rest);
    }
  }

  /** Adding a fresh key adds exactly its value. */
  lemma ValuesAdd<K, V>(m: map<K, V>, k: K, v: V)
    requires k !in m
    ensures Values(m[k := v]) == Values(m) + multiset{v}
  {
    ValuesRemove(m[k := v], k);
    assert m[k := v] - {k} == m;
  }
}

=== FILE: dispatcher.dfy ===
/**
  The single-worker dispatcher of src/js-python.ts (class JSPython) as a
  sequential state machine. Each handler of JSPython (a `runTask` call,
  one stdout chunk, the worker's exit) is one atomic step on an immutable
  state; the code after an `await` runs in the step that resolves it.
 */
module Dispatcher {
  import opened Text
  import opened Ids
  import opened Protocol

  /** The continuation awaiting a task's result, as an opaque handle. When a
      queued task is re-submitted, its result is forwarded to the original
      resolver, so the handle travels with the task. */
  type Caller = nat

  /** A queued submission: its arguments and who awaits the result. */
  datatype Task = Task(args: seq<string>, caller: Caller)

  /** A request written to the worker's stdin. */
  datatype Request = Request(id: string, args: seq<string>)

  /** A result handed to the caller that awaits it. */
  datatype Delivery = Delivery(caller: Caller, result: seq<string>)

  /** The fields of a JSPython instance. `threadCount` is a JavaScript number,
      hence an unbounded integer here. */
  datatype State = State(
    queue: seq<Task>,
    ready: bool,
    threadCount: int,
    resolveMap: map<string, Caller>,
    maxThreads: nat)

  /** What a step does to the outside world: request lines written, results
      delivered, and whether the worker is spawned again. */
  datatype Effects = Effects(sent: seq<Request>, delivered: seq<Delivery>, respawn: bool)

  const Quiet: Effects := Effects([], [], false)

  /** A response whose id has no resolver makes the host call `undefined`. */
  datatype Fault = UnresolvedResponse(id: string)

  datatype Outcome = Next(state: State, effects: Effects) | Crash(fault: Fault)

  /** The events the dispatcher reacts to: a call of `runTask`, one chunk
      read from the worker's stdout, and the worker's exit. */
  datatype Event = Submit(task: Task) | Receive(message: string) | Exit(code: int)

  /** State after the synchronous part of one or more `runTask` calls,
      with the requests they wrote. */
  datatype Admission = Admission(state: State, sent: seq<Request>)

  function Min(a: int, b: int): int
  {
    if a < b then a else b
  }

  /** The lines a step writes to the worker's stdin. */
  function Lines(sent: seq<Request>): (lines: seq<string>)
    ensures |lines| == |sent|
    ensures forall k :: 0 <= k < |sent| ==> lines[k] == EncodeRequest(sent[k].id, sent[k].args)
  {
    if |sent| == 0 then [] else [EncodeRequest(sent[0].id, sent[0].args)] + Lines(sent[1..])
  }

  /** The bookkeeping the dispatcher keeps: in-flight tasks within the bound,
      one live resolver per in-flight task, and well-formed ids. */
  predicate Inv(s: State)
  {
    && 0 <= s.threadCount <= s.maxThreads
    && |s.resolveMap| == s.threadCount
    && forall id :: id in s.resolveMap ==> IsHexId(id)
  }

  /** The constructor: nothing queued or in flight, not ready, and the
      worker is spawned. */
  function Start(maxThreads: nat): (r: Outcome)
    ensures r.Next? && Inv(r.state) && !r.state.ready && r.state.queue == []
    ensures r.state.threadCount == 0 && r.state.resolveMap == map[]
    ensures r.state.maxThreads == maxThreads && r.effects == Effects([], [], true)
  {
    Next(State([], false, 0, map[], maxThreads), Effects([], [], true))
  }

  /** `runTask` refuses to dispatch at capacity or before the worker is ready. */
  predicate Blocked(s: State)
  {
    s.threadCount >= s.maxThreads || !s.ready
  }

  /** The synchronous part of `runTask` (and of `doRunTask` when it
      dispatches): either the task joins the queue's tail and nothing else
      changes, or one more task is in flight under a fresh id mapped to its
      caller and exactly one request is written. */
  function RunTask(s: State, t: Task): (r: Admission)
    ensures r.state.maxThreads == s.maxThreads && r.state.ready == s.ready
    ensures Blocked(s) ==> r.state == s.(queue := s.queue + [t]) && r.sent == []
    ensures !Blocked(s) ==>
      && r.state.queue == s.queue
      && r.state.threadCount == s.threadCount + 1
      && |r.sent| == 1
      && r.sent[0].args == t.args
      && r.sent[0].id !in s.resolveMap
      && IsHexId(r.sent[0].id)
      && r.state.resolveMap == s.resolveMap[r.sent[0].id := t.caller]
  {
    if Blocked(s) then
      Admission(s.(queue := s.queue + [t]), [])
    else
      var id := FreshId(s.resolveMap.Keys);
      Admission(s.(threadCount := s.threadCount + 1,
                   resolveMap := s.resolveMap[id := t.caller]),
                [Request(id, t.args)])
  }

  /** The loop run on a `ready` line, from iteration `i`. Its bound
      `min(maxThreads, queue.length)` is evaluated afresh before every
      iteration while each iteration shifts the queue. Every task taken is
      either dispatched or put back at the tail, every dispatch adds one
      task in flight, and nothing is written unless the worker is ready. */
  function Drain(s: State, i: nat): (r: Admission)
    ensures r.state.maxThreads == s.maxThreads && r.state.ready == s.ready
    ensures r.state.threadCount == s.threadCount + |r.sent|
    ensures |r.state.queue| + |r.sent| == |s.queue|
    ensures !s.ready ==> r.sent == []
    decreases s.maxThreads - i
  {
    if i < Min(s.maxThreads, |s.queue|) then
      var a := RunTask(s.(queue := s.queue[1..]), s.queue[0]);
      var rest := Drain(a.state, i + 1);
      Admission(rest.state, a.sent + rest.sent)
    else
      Admission(s, [])
  }

  /** The tail of `runTask` after its own task completes: if anything is
      queued, the head is shifted off and submitted again. It is dispatched
      when a slot is free and the worker is ready, and otherwise goes to the
      tail, so the queue rotates by one; with nothing queued nothing happens. */
  function Promote(s: State): (r: Admission)
    ensures r.state.maxThreads == s.maxThreads && r.state.ready == s.ready
    ensures |s.queue| == 0 ==> r == Admission(s, [])
    ensures |s.queue| > 0 && Blocked(s) ==>
      r.state == s.(queue := s.queue[1..] + [s.queue[0]]) && r.sent == []
    ensures |s.queue| > 0 && !Blocked(s) ==>
      && r.state.queue == s.queue[1..]
      && r.state.threadCount == s.threadCount + 1
      && |r.sent| == 1 && r.sent[0].args == s.queue[0].args
      && r.sent[0].id !in s.resolveMap && IsHexId(r.sent[0].id)
      && r.state.resolveMap == s.resolveMap[r.sent[0].id := s.queue[0].caller]
  {
    if |s.queue| > 0 then RunTask(s.(queue := s.queue[1..]), s.queue[0])
    else Admission(s, [])
  }

  /** A `response` line for `id`. An unknown id is a fault. A known id hands
      `data` to its caller, frees the slot and the id, and gives the queue's
      head one more `runTask`: it is dispatched when a slot is free and the
      worker is ready, and otherwise moves to the tail. */
  function Complete(s: State, id: string, data: seq<string>): (r: Outcome)
    ensures r.Crash? <==> id !in s.resolveMap
    ensures r.Crash? ==> r.fault == UnresolvedResponse(id)
    ensures r.Next? ==>
      && r.effects.delivered == [Delivery(s.resolveMap[id], data)]
      && !r.effects.respawn
      && r.state.ready == s.ready && r.state.maxThreads == s.maxThreads
      && r.state.threadCount == s.threadCount - 1 + |r.effects.sent|
      && (r.effects.sent != [] <==> |s.queue| > 0 && s.ready && s.threadCount - 1 < s.maxThreads)
      && (|s.queue| == 0 ==> r.state.queue == [] && r.state.resolveMap == s.resolveMap - {id})
      && (|s.queue| > 0 && r.effects.sent == [] ==>
            r.state.queue == s.queue[1..] + [s.queue[0]] && r.state.resolveMap == s.resolveMap - {id})
      && (r.effects.sent != [] ==>
            && |r.effects.sent| == 1
            && r.state.queue == s.queue[1..]
            && r.effects.sent[0].args == s.queue[0].args
            && r.effects.sent[0].id !in s.resolveMap - {id}
            && r.state.resolveMap == (s.resolveMap - {id})[r.effects.sent[0].id := s.queue[0].caller])
  {
    if id !in s.resolveMap then
      Crash(UnresolvedResponse(id))
    else
      var caller := s.resolveMap[id];
      var freed := s.(threadCount := s.threadCount - 1, resolveMap := s.resolveMap - {id});
      var a := Promote(freed);
      Next(a.state, Effects(a.sent, [Delivery(caller, data)], false))
  }

  /** One chunk from the worker's stdout, taken to be one line. A `ready`
      line sets `ready` and runs the dispatch loop; a `response` line
      completes a task; any other line changes nothing. */
  function HandleLine(s: State, message: string): (r: Outcome)
    ensures DecodeHost(message).kind == Some("ready") ==>
      && r.Next? && r.state.ready && r.effects.delivered == [] && !r.effects.respawn
      && r.state.maxThreads == s.maxThreads
      && r.state.threadCount == s.threadCount + |r.effects.sent|
      && |r.state.queue| + |r.effects.sent| == |s.queue|
    ensures DecodeHost(message).kind == Some("response") ==>
      r == Complete(s, DecodeHost(message).id, DecodeHost(message).data)
    ensures DecodeHost(message).kind !in {Some("ready"), Some("response")} ==> r == Next(s, Quiet)
  {
    var m := DecodeHost(message);
    if m.kind == Some("ready") then
      var a := Drain(s.(ready := true), 0);
      Next(a.state, Effects(a.sent, [], false))
    else if m.kind == Some("response") then
      Complete(s, m.id, m.data)
    else
      Next(s, Quiet)
  }

  /** `handleCrash`: whatever the exit code, the worker is no longer ready
      and is spawned again; queued and in-flight work is kept as it is. */
  function HandleCrash(s: State, code: int): (r: Outcome)
    ensures r.Next? && !r.state.ready
    ensures r.effects == Effects([], [], true)
    ensures r.state.queue == s.queue && r.state.threadCount == s.threadCount
    ensures r.state.resolveMap == s.resolveMap && r.state.maxThreads == s.maxThreads
  {
    Next(s.(ready := false), Effects([], [], true))
  }

  /** One event. Only a line from the worker can fault; the bound never
      changes; only an exit respawns the worker; only a `response` line hands
      a result to a caller. */
  function Step(s: State, e: Event): (r: Outcome)
    ensures r.Crash? ==> e.Receive?
    ensures r.Next? ==> r.state.maxThreads == s.maxThreads
    ensures r.Next? ==> (r.effects.respawn <==> e.Exit?)
    ensures r.Next? && r.effects.delivered != [] ==>
      e.Receive? && DecodeHost(e.message).kind == Some("response")
  {
    match e
    case Submit(t) =>
      var a := RunTask(s, t);
      Next(a.state, Effects(a.sent, [], false))
    case Receive(message) => HandleLine(s, message)
    case Exit(code) => HandleCrash(s, code)
  }
}

=== FILE: ids.dfy ===
/**
  Correlation identifiers. The host draws 16 random bytes and writes them in
  hex; the model replaces the draw by a deterministic choice of a hex string
  that is not among the identifiers still awaiting a response, which is the
  only property the dispatcher relies on.
 */
module Ids {

  predicate IsHexDigit(c: char)
  {
    '0' <= c <= '9' || 'a' <= c <= 'f'
  }

  /** A non-empty lower-case hex string, the shape of `toString('hex')`. */
  predicate IsHexId(id: string)
  {
    |id| > 0 && forall i :: 0 <= i < |id| ==> IsHexDigit(id[i])
  }

  /** The k-th candidate identifier: k + 1 copies of the digit `a`. */
  function Candidate(k: nat): (id: string)
    ensures |id| == k + 1
    ensures IsHexId(id)
  {
    seq(k + 1, _ => 'a')
  }

  /** If the first n candidates are all taken, at least n identifiers are taken. */
  lemma {:induction false} TakenCandidates(used: set<string>, n: nat)
    requires forall j :: 0 <= j < n ==> Candidate(j) in used
    ensures n <= |used|
  {
    if n > 0 {
      var rest := used - {Candidate(n - 1)};
      forall j | 0 <= j < n - 1
        ensures Candidate(j) in rest
      {
        assert |Candidate(j)| != |Candidate(n - 1)|;
      }
      TakenCandidates(rest, n - 1);
    }
  }

  /** The first candidate from the k-th on that is not taken. */
  function FreshFrom(used: set<string>, k: nat): (id: string)
    requires forall j :: 0 <= j < k ==> Candidate(j) in used
    ensures id !in used
    ensures IsHexId(id)
    decreases |used| - k
  {
    if Candidate(k) !in used then Candidate(k)
    else
      TakenCandidates(used, k + 1);
      FreshFrom(used, k + 1)
  }

  /** An identifier that collides with none of `used`. */
  function FreshId(used: set<string>): (id: string)
    ensures id !in used
    ensures IsHexId(id)
  {
    FreshFrom(used, 0)
  }
}

=== FILE: properties.dfy ===
/**
  Properties of the dispatcher across events: the bookkeeping invariant,
  dispatch only while ready, no task lost or duplicated, the size of the
  ready burst, recovery after a crash, and a full request/response exchange
  through the worker.
 */
module Properties {
  import opened Text
  import opened Ids
  import opened Protocol
  import opened Dispatcher
  import opened Bags

  // ------------------------------------------------------------ invariant

  lemma CompleteKeepsInv(s: State, id: string, data: seq<string>)
    requires Inv(s)
    ensures Complete(s, id, data).Next? ==> Inv(Complete(s, id, data).state)
  {
    if id in s.resolveMap {
      var r := Complete(s, id, data);
      var freed := s.resolveMap - {id};
      assert |freed| == |s.resolveMap| - 1 by {
        assert freed.Keys == s.resolveMap.Keys - {id};
      }
      if r.effects.sent != [] {
        var newId := r.effects.sent[0].id;
        assert r.state.resolveMap == freed[newId := s.queue[0].caller];
        assert |r.state.resolveMap| == |freed| + 1;
      } else {
        assert r.state.resolveMap == freed;
      }
    }
  }

  /** Every event keeps in-flight tasks within `maxThreads`, one resolver per
      in-flight task, and well-formed ids. */
  lemma StepPreservesInv(s: State, e: Event)
    requires Inv(s)
    ensures Step(s, e).Next? ==> Inv(Step(s, e).state)
  {
    match e
    case Submit(t) =>
      RunTaskKeepsInv(s, t);
    case Exit(code) =>
      assert Step(s, e).state == s.(ready := false);
    case Receive(message) =>
      var m := DecodeHost(message);
      if m.kind == Some("ready") {
        var a := Drain(s.(ready := true), 0);
        assert Step(s, e) == Next(a.state, Effects(a.sent, [], false));
        DrainKeepsInv(s.(ready := true), 0);
      } else if m.kind == Some("response") {
        assert Step(s, e) == Complete(s, m.id, m.data);
        CompleteKeepsInv(s, m.id, m.data);
      } else {
        assert Step(s, e) == Next(s, Quiet);
      }
  }

  /** The ready loop keeps in-flight tasks within the bound and one live
      id per task in flight, whether its iterations dispatch or re-queue. */
  lemma {:induction false} DrainKeepsInv(s: State, i: nat)
    requires Inv(s)
    ensures Inv(Drain(s, i).state)
    decreases s.maxThreads - i
  {
    if i < Min(s.maxThreads, |s.queue|) {
      var a := RunTask(s.(queue := s.queue[1..]), s.queue[0]);
      RunTaskKeepsInv(s.(queue := s.queue[1..]), s.queue[0]);
      DrainKeepsInv(a.state, i + 1);
      DrainUnfold(s, i);
    }
  }

  /** Requests are written only while the worker is ready: a step that
      writes leaves `ready` set, and unless the step is the `ready` line
      itself the worker was already ready before it. */
  lemma SendOnlyWhenReady(s: State, e: Event)
    ensures Step(s, e).Next? && Step(s, e).effects.sent != [] ==>
      && Step(s, e).state.ready
      && (s.ready || (e.Receive? && DecodeHost(e.message).kind == Some("ready")))
  {
  }

  /** The state after a sequence of events from a consistent state, unless
      some event faults first. */
  function Run(s: State, events: seq<Event>): (r: Outcome)
    requires Inv(s)
    ensures r.Next? ==> Inv(r.state)
    ensures r.Next? ==> r.state.maxThreads == s.maxThreads
    decreases |events|
  {
    if |events| == 0 then Next(s, Quiet)
    else
      var o := Step(s, events[0]);
      StepPreservesInv(s, events[0]);
      if o.Crash? then o else Run(o.state, events[1..])
  }

  /** From a fresh instance, every run of events keeps the bookkeeping
      consistent and in-flight tasks within the bound. */
  lemma RunFromStart(maxThreads: nat, events: seq<Event>)
    ensures var r := Run(Start(maxThreads).state, events);
      r.Next? ==> 0 <= r.state.threadCount <= maxThreads && |r.state.resolveMap| == r.state.threadCount
  {
  }

  // ------------------------------------------------------------ conservation

  /** The callers of the queued tasks, with multiplicity. */
  ghost function Queued(q: seq<Task>): multiset<Caller>
  {
    if |q| == 0 then multiset{} else multiset{q[0].caller} + Queued(q[1..])
  }

  /** Appending a task to the queue adds its caller. */
  lemma {:induction false} QueuedAppend(q: seq<Task>, t: Task)
    ensures Queued(q + [t]) == Queued(q) + multiset{t.caller}
  {
    if |q| > 0 {
      assert (q + [t])[1..] == q[1..] + [t];
      QueuedAppend(q[1..], t);
    } else {
      assert (q + [t])[1..] == [];
    }
  }

  /** Every task not yet answered: queued, or in flight under some id. */
  ghost function Pending(s: State): multiset<Caller>
  {
    Queued(s.queue) + Values(s.resolveMap)
  }

  ghost function Delivered(fx: Effects): multiset<Caller>
  {
    multiset(seq(|fx.delivered|, k requires 0 <= k < |fx.delivered| => fx.delivered[k].caller))
  }

  /** A step that hands no result to anyone answers no caller. */
  lemma DeliversNothing(sent: seq<Request>, respawn: bool)
    ensures Delivered(Effects(sent, [], respawn)) == multiset{}
  {
    var fx := Effects(sent, [], respawn);
    assert seq(|fx.delivered|, k requires 0 <= k < |fx.delivered| => fx.delivered[k].caller) == [];
  }

  /** A step that hands one result over answers exactly its caller. */
  lemma DeliversOne(sent: seq<Request>, d: Delivery)
    ensures Delivered(Effects(sent, [d], false)) == multiset{d.caller}
  {
    var fx := Effects(sent, [d], false);
    assert seq(|fx.delivered|, k requires 0 <= k < |fx.delivered| => fx.delivered[k].caller) == [d.caller];
  }

  ghost function Submitted(e: Event): multiset<Caller>
  {
    if e.Submit? then multiset{e.task.caller} else multiset{}
  }

  lemma ShiftConserves(s: State)
    requires |s.queue| > 0
    ensures Pending(s.(queue := s.queue[1..])) + multiset{s.queue[0].caller} == Pending(s)
  {
  }

  lemma RunTaskConserves(s: State, t: Task)
    ensures Pending(RunTask(s, t).state) == Pending(s) + multiset{t.caller}
  {
    var r := RunTask(s, t);
    var held := Values(s.resolveMap);
    if Blocked(s) {
      assert r.state.resolveMap == s.resolveMap;
      QueuedAppend(s.queue, t);
    } else {
      assert r.state.queue == s.queue;
      ValuesAdd(s.resolveMap, r.sent[0].id, t.caller);
      assert Values(r.state.resolveMap) == held + multiset{t.caller};
    }
  }

  lemma {:induction false} DrainConserves(s: State, i: nat)
    ensures Pending(Drain(s, i).state) == Pending(s)
    decreases s.maxThreads - i
  {
    if i < Min(s.maxThreads, |s.queue|) {
      var a := RunTask(s.(queue := s.queue[1..]), s.queue[0]);
      DrainUnfold(s, i);
      HeadConserves(s);
      DrainConserves(a.state, i + 1);
    }
  }

  /** One iteration of the ready loop: the head is run again, and the loop
      continues from the resulting state. */
  lemma DrainUnfold(s: State, i: nat)
    requires i < Min(s.maxThreads, |s.queue|)
    ensures var a := RunTask(s.(queue := s.queue[1..]), s.queue[0]);
      Drain(s, i) == Admission(Drain(a.state, i + 1).state, a.sent + Drain(a.state, i + 1).sent)
  {
  }

  /** Taking the queue's head and running it again keeps the pending callers. */
  lemma HeadConserves(s: State)
    requires |s.queue| > 0
    ensures Pending(RunTask(s.(queue := s.queue[1..]), s.queue[0]).state) == Pending(s)
  {
    ShiftConserves(s);
    RunTaskConserves(s.(queue := s.queue[1..]), s.queue[0]);
  }

  lemma CompleteConserves(s: State, id: string, data: seq<string>)
    requires id in s.resolveMap
    ensures Pending(Complete(s, id, data).state) + multiset{s.resolveMap[id]} == Pending(s)
  {
    var freed := s.(threadCount := s.threadCount - 1, resolveMap := s.resolveMap - {id});
    ValuesRemove(s.resolveMap, id);
    if |freed.queue| > 0 {
      ShiftConserves(freed);
      RunTaskConserves(freed.(queue := freed.queue[1..]), freed.queue[0]);
    }
  }

  /** The balance `Pending(after) + Delivered == Pending(before) + Submitted`
      for one event. */
  ghost predicate Balanced(s: State, e: Event)
  {
    Step(s, e).Next? ==>
      Pending(Step(s, e).state) + Delivered(Step(s, e).effects) == Pending(s) + Submitted(e)
  }

  lemma SubmitConserves(s: State, t: Task)
    ensures Balanced(s, Submit(t))
  {
    var r := Step(s, Submit(t));
    assert Pending(r.state) == Pending(s) + multiset{t.caller} by {
      RunTaskConserves(s, t);
    }
    assert Delivered(r.effects) == multiset{};
  }

  lemma ExitConserves(s: State, code: int)
    ensures Balanced(s, Exit(code))
  {
    var r := Step(s, Exit(code));
    assert Pending(r.state) == Pending(s);
    assert Delivered(r.effects) == multiset{};
  }

  lemma ReadyConserves(s: State, message: string)
    requires DecodeHost(message).kind == Some("ready")
    ensures Balanced(s, Receive(message))
  {
    var a := Drain(s.(ready := true), 0);
    var r := Step(s, Receive(message));
    assert r == Next(a.state, Effects(a.sent, [], false)) by {
      ReadyStep(s, message);
    }
    assert Pending(r.state) == Pending(s) by {
      DrainConserves(s.(ready := true), 0);
      assert Pending(s.(ready := true)) == Pending(s);
    }
    assert Delivered(r.effects) == multiset{} by {
      DeliversNothing(a.sent, false);
    }
    assert Submitted(Receive(message)) == multiset{};
  }

  /** A `ready` line is the ready loop run from the first iteration on the
      state with `ready` set. */
  lemma ReadyStep(s: State, message: string)
    requires DecodeHost(message).kind == Some("ready")
    ensures var a := Drain(s.(ready := true), 0);
      HandleLine(s, message) == Next(a.state, Effects(a.sent, [], false))
  {
  }

  lemma CompleteBalanced(s: State, id: string, data: seq<string>)
    ensures var r := Complete(s, id, data);
      r.Next? ==> Pending(r.state) + Delivered(r.effects) == Pending(s)
  {
    var r := Complete(s, id, data);
    if id in s.resolveMap {
      var caller := s.resolveMap[id];
      assert Pending(r.state) + multiset{caller} == Pending(s) by {
        CompleteConserves(s, id, data);
      }
      assert Delivered(r.effects) == multiset{caller} by {
        assert r.effects == Effects(r.effects.sent, [Delivery(caller, data)], false);
        DeliversOne(r.effects.sent, Delivery(caller, data));
      }
    }
  }

  lemma ResponseConserves(s: State, message: string)
    requires DecodeHost(message).kind == Some("response")
    ensures Balanced(s, Receive(message))
  {
    var m := DecodeHost(message);
    assert HandleLine(s, message) == Complete(s, m.id, m.data);
    CompleteBalanced(s, m.id, m.data);
  }

  lemma LineConserves(s: State, message: string)
    ensures Balanced(s, Receive(message))
  {
    var kind := DecodeHost(message).kind;
    if kind == Some("ready") {
      ReadyConserves(s, message);
    } else if kind == Some("response") {
      ResponseConserves(s, message);
    } else {
      var r := HandleLine(s, message);
      assert r == Next(s, Quiet);
      assert Delivered(r.effects) == multiset{};
    }
  }

  /** No task is lost or duplicated: after any event, the tasks still
      pending plus those answered equal the tasks pending before plus the
      one submitted. */
  lemma StepConserves(s: State, e: Event)
    ensures Step(s, e).Next? ==>
      Pending(Step(s, e).state) + Delivered(Step(s, e).effects) == Pending(s) + Submitted(e)
  {
    match e
    case Submit(t) => SubmitConserves(s, t);
    case Exit(code) => ExitConserves(s, code);
    case Receive(message) => LineConserves(s, message);
  }

  // ------------------------------------------------------------ ready burst

  /** The ready loop run from an idle worker: while fewer than half of the
      tasks queued at the start have been taken, and a slot is free, each
      iteration dispatches the current head. */
  lemma {:induction false} DrainFromIdle(s: State, i: nat, total: nat)
    requires Inv(s) && s.ready && s.threadCount == i
    requires |s.queue| + i == total
    requires i <= Min(s.maxThreads, (total + 1) / 2)
    ensures var k := Min(s.maxThreads, (total + 1) / 2);
      var r := Drain(s, i);
      && |r.sent| == k - i
      && r.state.queue == s.queue[k - i..]
      && r.state.threadCount == k
      && forall j :: 0 <= j < k - i ==> r.sent[j].args == s.queue[j].args
    decreases s.maxThreads - i
  {
    var k := Min(s.maxThreads, (total + 1) / 2);
    HalfStep(i, total);
    if i < Min(s.maxThreads, |s.queue|) {
      var a := RunTask(s.(queue := s.queue[1..]), s.queue[0]);
      DispatchHead(s);
      assert |a.state.queue| + i + 1 == total && i + 1 <= k;
      DrainFromIdle(a.state, i + 1, total);
      IdleStep(s, i, k);
    } else {
      assert i == k;
      assert s.queue[0..] == s.queue;
    }
  }

  /** The ready loop from iteration i, on a queue whose first k - i tasks it
      dispatches in order, with the count reaching k. */
  ghost predicate DispatchesHeads(s: State, i: nat, k: nat)
    requires i <= k
  {
    var r := Drain(s, i);
    && |r.sent| == k - i
    && k - i <= |s.queue|
    && r.state.queue == s.queue[k - i..]
    && r.state.threadCount == k
    && forall j :: 0 <= j < k - i ==> r.sent[j].args == s.queue[j].args
  }

  /** One dispatching iteration extends the run of dispatched heads by one. */
  lemma IdleStep(s: State, i: nat, k: nat)
    requires Inv(s) && s.ready && s.threadCount < s.maxThreads
    requires i < Min(s.maxThreads, |s.queue|) && i + 1 <= k
    requires DispatchesHeads(RunTask(s.(queue := s.queue[1..]), s.queue[0]).state, i + 1, k)
    ensures DispatchesHeads(s, i, k)
  {
    var a := RunTask(s.(queue := s.queue[1..]), s.queue[0]);
    DispatchHead(s);
    var rest := Drain(a.state, i + 1);
    assert Drain(s, i) == Admission(rest.state, a.sent + rest.sent) by {
      DrainUnfold(s, i);
    }
    assert rest.state.queue == s.queue[k - i..] by {
      SliceTail(s.queue, k - i);
    }
    assert forall j :: 0 <= j < k - i ==> (a.sent + rest.sent)[j].args == s.queue[j].args by {
      SentInOrder(s.queue, a.sent, rest.sent, k - i);
    }
  }

  /** Every id in `m` is still in `m2`, mapped to the same caller. */
  ghost predicate KeepsEntries(m: map<string, Caller>, m2: map<string, Caller>)
  {
    forall id :: id in m ==> id in m2 && m2[id] == m[id]
  }

  /** The ready loop only adds ids: each dispatch registers a fresh one, so
      no caller already waiting for an answer is lost or replaced. */
  lemma {:induction false} DrainKeepsEntries(s: State, i: nat)
    ensures KeepsEntries(s.resolveMap, Drain(s, i).state.resolveMap)
    decreases s.maxThreads - i
  {
    if i < Min(s.maxThreads, |s.queue|) {
      var a := RunTask(s.(queue := s.queue[1..]), s.queue[0]);
      DrainKeepsEntries(a.state, i + 1);
      assert KeepsEntries(s.resolveMap, a.state.resolveMap);
    }
  }

  /** The requests `r` writes are for the first tasks of `q`, in order: each
      carries its task's arguments, and its id is registered to its task's
      caller. */
  ghost predicate SendsHeads(r: Admission, q: seq<Task>)
  {
    && |r.sent| <= |q|
    && forall j :: 0 <= j < |r.sent| ==>
         && r.sent[j].args == q[j].args
         && r.sent[j].id in r.state.resolveMap
         && r.state.resolveMap[r.sent[j].id] == q[j].caller
  }

  /** From any state, slots partly held or not, the ready loop writes
      requests only for the queue's first tasks, in order, each registered to
      its own task's caller: it dispatches heads while a slot is free, and
      once the slots are full it only moves tasks to the tail. */
  lemma {:induction false} DrainSendsHeads(s: State, i: nat)
    ensures SendsHeads(Drain(s, i), s.queue)
    decreases s.maxThreads - i
  {
    if i < Min(s.maxThreads, |s.queue|) {
      var a := RunTask(s.(queue := s.queue[1..]), s.queue[0]);
      if Blocked(s) {
        assert Drain(s, i).sent == [] by {
          DrainUnfold(s, i);
          if s.threadCount >= s.maxThreads {
            DrainRotates(a.state, i + 1);
          }
        }
      } else {
        DrainSendsHeads(a.state, i + 1);
        HeadThenHeads(s, i);
      }
    }
  }

  /** A dispatched head followed by requests for the next heads is a run of
      requests for the heads. */
  lemma HeadThenHeads(s: State, i: nat)
    requires i < Min(s.maxThreads, |s.queue|) && !Blocked(s)
    requires var a := RunTask(s.(queue := s.queue[1..]), s.queue[0]);
      SendsHeads(Drain(a.state, i + 1), a.state.queue)
    ensures SendsHeads(Drain(s, i), s.queue)
  {
    var a := RunTask(s.(queue := s.queue[1..]), s.queue[0]);
    var rest := Drain(a.state, i + 1);
    assert Drain(s, i) == Admission(rest.state, a.sent + rest.sent) by {
      DrainUnfold(s, i);
    }
    assert a.sent[0].id in rest.state.resolveMap && rest.state.resolveMap[a.sent[0].id] == s.queue[0].caller by {
      DrainKeepsEntries(a.state, i + 1);
    }
    forall j | 0 <= j < |a.sent + rest.sent|
      ensures (a.sent + rest.sent)[j].args == s.queue[j].args
      ensures (a.sent + rest.sent)[j].id in rest.state.resolveMap
      ensures rest.state.resolveMap[(a.sent + rest.sent)[j].id] == s.queue[j].caller
    {
      if j > 0 {
        assert (a.sent + rest.sent)[j] == rest.sent[j - 1];
        assert a.state.queue[j - 1] == s.queue[j];
      }
    }
  }

  /** A `ready` line, whatever the worker was doing, writes requests only for
      the queue's first tasks, in order, each registered to its own caller,
      and takes no more of them than there are free slots. */
  lemma ReadySendsHeads(s: State, message: string)
    requires Inv(s)
    requires DecodeHost(message).kind == Some("ready")
    ensures var r := HandleLine(s, message);
      && r.Next? && r.state.ready
      && r.state.threadCount == s.threadCount + |r.effects.sent| <= s.maxThreads
      && SendsHeads(Admission(r.state, r.effects.sent), s.queue)
  {
    ReadyStep(s, message);
    DrainSendsHeads(s.(ready := true), 0);
    DrainKeepsInv(s.(ready := true), 0);
  }

  /** The ready loop with two slots, one still held, and A, B, C queued: A is
      dispatched, B finds the slots full and goes to the tail, and C, B wait. */
  lemma PartlyHeldReady(a: Task, b: Task, c: Task, held: map<string, Caller>)
    ensures var r := Drain(State([a, b, c], true, 1, held, 2), 0);
      |r.sent| == 1 && r.sent[0].args == a.args && r.state.queue == [c, b] && r.state.threadCount == 2
  {
    var s := State([a, b, c], true, 1, held, 2);
    var a1 := RunTask(s.(queue := s.queue[1..]), s.queue[0]);
    assert s.queue[1..] == [b, c];
    var s1 := a1.state;
    assert s1.queue == [b, c] && s1.threadCount == 2;
    var a2 := RunTask(s1.(queue := s1.queue[1..]), s1.queue[0]);
    assert s1.queue[1..] == [c];
    assert a2.state.queue == [c, b] && a2.sent == [];
    assert Drain(a2.state, 2) == Admission(a2.state, []);
    assert Drain(s1, 1) == Admission(a2.state, []);
    assert Drain(s, 0) == Admission(a2.state, a1.sent);
  }

  /** The ready loop run from an idle worker registers the id of the j-th
      request it writes to the caller of the j-th task queued. */
  lemma {:induction false} DrainFromIdleRegisters(s: State, i: nat, total: nat)
    requires Inv(s) && s.ready && s.threadCount == i
    requires |s.queue| + i == total
    requires i <= Min(s.maxThreads, (total + 1) / 2)
    ensures var k := Min(s.maxThreads, (total + 1) / 2);
      var r := Drain(s, i);
      && |r.sent| == k - i
      && forall j :: 0 <= j < k - i ==>
           r.sent[j].id in r.state.resolveMap && r.state.resolveMap[r.sent[j].id] == s.queue[j].caller
    decreases s.maxThreads - i
  {
    var k := Min(s.maxThreads, (total + 1) / 2);
    assert |Drain(s, i).sent| == k - i && k - i <= |s.queue| by {
      DrainFromIdle(s, i, total);
    }
    HalfStep(i, total);
    if i < Min(s.maxThreads, |s.queue|) {
      var a := RunTask(s.(queue := s.queue[1..]), s.queue[0]);
      assert && Inv(a.state) && a.state.ready && a.state.threadCount == i + 1
             && a.state.maxThreads == s.maxThreads && a.state.queue == s.queue[1..] by {
        DispatchHead(s);
      }
      DrainFromIdleRegisters(a.state, i + 1, total);
      IdleRegisters(s, i, k);
    }
  }

  /** One dispatching iteration extends the registered run by one: the
      head's fresh id survives the rest of the loop. */
  lemma IdleRegisters(s: State, i: nat, k: nat)
    requires Inv(s) && s.ready && s.threadCount < s.maxThreads
    requires i < Min(s.maxThreads, |s.queue|) && i + 1 <= k
    requires var a := RunTask(s.(queue := s.queue[1..]), s.queue[0]);
      var rest := Drain(a.state, i + 1);
      && |rest.sent| == k - (i + 1) && k - i <= |s.queue|
      && forall j :: 0 <= j < k - (i + 1) ==>
           rest.sent[j].id in rest.state.resolveMap && rest.state.resolveMap[rest.sent[j].id] == a.state.queue[j].caller
    ensures var r := Drain(s, i);
      forall j :: 0 <= j < k - i ==>
        r.sent[j].id in r.state.resolveMap && r.state.resolveMap[r.sent[j].id] == s.queue[j].caller
  {
    var a := RunTask(s.(queue := s.queue[1..]), s.queue[0]);
    var rest := Drain(a.state, i + 1);
    assert Drain(s, i) == Admission(rest.state, a.sent + rest.sent) by {
      DrainUnfold(s, i);
    }
    assert a.sent[0].id in rest.state.resolveMap && rest.state.resolveMap[a.sent[0].id] == s.queue[0].caller by {
      DrainKeepsEntries(a.state, i + 1);
    }
    forall j | 0 <= j < k - i
      ensures (a.sent + rest.sent)[j].id in rest.state.resolveMap
      ensures rest.state.resolveMap[(a.sent + rest.sent)[j].id] == s.queue[j].caller
    {
      if j > 0 {
        assert (a.sent + rest.sent)[j] == rest.sent[j - 1];
        assert a.state.queue[j - 1] == s.queue[j];
      }
    }
  }

  /** The loop counter against half the tasks it started with. */
  lemma HalfStep(i: nat, total: nat)
    ensures 2 * i < total ==> i + 1 <= (total + 1) / 2
    ensures 2 * i >= total ==> (total + 1) / 2 <= i
  {
  }

  /** Dropping m tasks after the head is dropping m + 1. */
  lemma SliceTail(q: seq<Task>, m: nat)
    requires 1 <= m <= |q|
    ensures q[1..][m - 1..] == q[m..]
  {
  }

  /** Dispatching the queue's head from a consistent, ready state with a
      free slot: one request carrying the head's arguments, one more task in
      flight, the rest of the queue waiting. */
  lemma DispatchHead(s: State)
    requires Inv(s) && s.ready && s.threadCount < s.maxThreads && |s.queue| > 0
    ensures var a := RunTask(s.(queue := s.queue[1..]), s.queue[0]);
      && Inv(a.state) && a.state.ready && a.state.maxThreads == s.maxThreads
      && a.state.queue == s.queue[1..]
      && a.state.threadCount == s.threadCount + 1
      && |a.sent| == 1 && a.sent[0].args == s.queue[0].args
  {
    RunTaskKeepsInv(s.(queue := s.queue[1..]), s.queue[0]);
  }

  /** A first request for the queue's head followed by requests for the next
      tasks in order carries the queue's arguments in order. */
  lemma SentInOrder(q: seq<Task>, first: seq<Request>, rest: seq<Request>, n: nat)
    requires |q| > 0 && |first| == 1 && first[0].args == q[0].args
    requires n == |rest| + 1 && n <= |q|
    requires forall j :: 0 <= j < n - 1 ==> rest[j].args == q[1..][j].args
    ensures forall j :: 0 <= j < n ==> (first + rest)[j].args == q[j].args
  {
    forall j | 0 <= j < n
      ensures (first + rest)[j].args == q[j].args
    {
      if j > 0 {
        assert (first + rest)[j] == rest[j - 1];
        assert q[1..][j - 1] == q[j];
      }
    }
  }

  lemma RunTaskKeepsInv(s: State, t: Task)
    requires Inv(s)
    ensures Inv(RunTask(s, t).state)
  {
  }

  /** A `ready` line reaching an idle dispatcher with L tasks queued
      dispatches exactly min(maxThreads, ceil(L/2)) of them, the queue's
      head first, and leaves the rest queued in order. */
  lemma ReadyFromIdle(s: State, message: string)
    requires Inv(s) && s.threadCount == 0
    requires DecodeHost(message).kind == Some("ready")
    ensures var k := Min(s.maxThreads, (|s.queue| + 1) / 2);
      var r := HandleLine(s, message);
      && r.Next? && r.state.ready
      && |r.effects.sent| == k
      && r.state.queue == s.queue[k..]
      && r.state.threadCount == k
      && (forall j :: 0 <= j < k ==> r.effects.sent[j].args == s.queue[j].args)
      && forall j :: 0 <= j < k ==>
           r.effects.sent[j].id in r.state.resolveMap && r.state.resolveMap[r.effects.sent[j].id] == s.queue[j].caller
  {
    ReadyStep(s, message);
    DrainFromIdle(s.(ready := true), 0, |s.queue|);
    DrainFromIdleRegisters(s.(ready := true), 0, |s.queue|);
  }

  /** The queue with its first n tasks moved, in order, to the tail. */
  function Rotate(q: seq<Task>, n: nat): (r: seq<Task>)
    requires n <= |q|
    ensures |r| == |q|
  {
    q[n..] + q[..n]
  }

  /** Iterations of the ready loop with no free slot: each takes the head
      and puts it back at the tail, and nothing else changes. */
  lemma {:induction false} DrainRotates(s: State, i: nat)
    requires s.threadCount >= s.maxThreads
    requires i <= Min(s.maxThreads, |s.queue|)
    ensures var k := Min(s.maxThreads, |s.queue|);
      && Drain(s, i).sent == []
      && Drain(s, i).state == s.(queue := Rotate(s.queue, k - i))
    decreases s.maxThreads - i
  {
    var k := Min(s.maxThreads, |s.queue|);
    if i < k {
      var q := s.queue;
      var n := k - i - 1;
      var q2 := q[1..] + [q[0]];
      var s2 := s.(queue := q2);
      assert |q2| == |q| && Min(s2.maxThreads, |s2.queue|) == k;
      assert Drain(s, i) == Drain(s2, i + 1) by {
        BlockedIteration(s, i);
      }
      assert Drain(s2, i + 1) == Admission(s2.(queue := Rotate(q2, n)), []) by {
        DrainRotates(s2, i + 1);
      }
      assert Rotate(q2, n) == Rotate(q, k - i) by {
        RotateStep(q, n);
      }
      assert s2.(queue := Rotate(q2, n)) == s.(queue := Rotate(q, k - i));
    } else {
      assert Drain(s, i) == Admission(s, []);
      assert Rotate(s.queue, 0) == s.queue;
      assert s == s.(queue := s.queue);
    }
  }

  /** Moving the head to the tail and then n more tasks is moving n + 1. */
  lemma RotateStep(q: seq<Task>, n: nat)
    requires n < |q|
    ensures Rotate(q[1..] + [q[0]], n) == Rotate(q, n + 1)
  {
    var q2 := q[1..] + [q[0]];
    assert q2[n..] == q[n + 1..] + [q[0]];
    assert q2[..n] == q[1..n + 1];
    assert q[..n + 1] == [q[0]] + q[1..n + 1];
  }

  /** An iteration of the ready loop with no free slot moves the head to the
      tail and writes nothing. */
  lemma BlockedIteration(s: State, i: nat)
    requires s.threadCount >= s.maxThreads
    requires i < Min(s.maxThreads, |s.queue|)
    ensures Drain(s, i) == Drain(s.(queue := s.queue[1..] + [s.queue[0]]), i + 1)
  {
    DrainUnfold(s, i);
  }

  /** When every slot is held, a ready line dispatches nothing and moves
      min(maxThreads, L) tasks from the head to the tail: the queue is no
      longer in submission order. */
  lemma ReadyRotatesWhenFull(s: State, message: string)
    requires DecodeHost(message).kind == Some("ready")
    requires s.threadCount >= s.maxThreads
    ensures HandleLine(s, message)
      == Next(s.(ready := true, queue := Rotate(s.queue, Min(s.maxThreads, |s.queue|))), Quiet)
  {
    var s1 := s.(ready := true);
    var a := Drain(s1, 0);
    ReadyStep(s, message);
    DrainRotates(s1, 0);
    assert a.sent == [] && a.state == s1.(queue := Rotate(s.queue, Min(s.maxThreads, |s.queue|)));
    assert Effects(a.sent, [], false) == Quiet;
  }

  /** Three tasks A, B, C queued with both slots held come out as C, A, B,
      so the next promotion serves C before the earlier A and B. */
  lemma RotationExample(a: Task, b: Task, c: Task, held: map<string, Caller>)
    ensures var s := State([a, b, c], false, 2, held, 2);
      var r := HandleLine(s, ReadyLine);
      r.Next? && r.effects.sent == [] && r.state.queue == [c, a, b]
  {
    var s := State([a, b, c], false, 2, held, 2);
    ReadyLineDecodes();
    ReadyRotatesWhenFull(s, ReadyLine);
    assert Rotate([a, b, c], 2) == [c, a, b];
  }

  // ------------------------------------------------------------ crash

  /** A worker exit, with any code, clears `ready` and respawns the worker;
      the queue, the in-flight count and the resolvers stay as they were. */
  lemma ExitRestarts(s: State, code: int, other: int)
    ensures var r := Step(s, Exit(code));
      && r.Next?
      && !r.state.ready && r.effects.respawn
      && r.effects.sent == [] && r.effects.delivered == []
      && r.state.queue == s.queue
      && r.state.threadCount == s.threadCount
      && r.state.resolveMap == s.resolveMap
      && r == Step(s, Exit(other))
  {
  }

  /** Slots held by tasks the crashed worker never answers stay held: with
      every slot taken, a restart followed by the new worker's ready line
      dispatches nothing, and a new submission joins the queue. */
  lemma CrashKeepsSlots(s: State, code: int, message: string, t: Task)
    requires Inv(s) && s.threadCount == s.maxThreads
    requires DecodeHost(message).kind == Some("ready")
    ensures var r1 := Step(s, Exit(code));
      && r1.Next?
      && var r2 := Step(r1.state, Receive(message));
         && r2.Next? && r2.effects.sent == [] && r2.state.ready
         && var r3 := Step(r2.state, Submit(t));
            && r3.Next? && r3.effects.sent == []
            && r3.state.queue == r2.state.queue + [t]
  {
    var s1 := s.(ready := false);
    var s2 := s1.(ready := true, queue := Rotate(s1.queue, Min(s1.maxThreads, |s1.queue|)));
    CrashThenReady(s, code, message);
    SubmitWhenBlocked(s2, t);
  }

  /** A crash followed by a ready line while every slot is held. */
  lemma CrashThenReady(s: State, code: int, message: string)
    requires s.threadCount >= s.maxThreads
    requires DecodeHost(message).kind == Some("ready")
    ensures var s1 := s.(ready := false);
      && Step(s, Exit(code)) == Next(s1, Effects([], [], true))
      && Step(s1, Receive(message))
         == Next(s1.(ready := true, queue := Rotate(s.queue, Min(s.maxThreads, |s.queue|))), Quiet)
  {
    ReadyRotatesWhenFull(s.(ready := false), message);
  }

  /** A submission that cannot be dispatched only joins the queue's tail. */
  lemma SubmitWhenBlocked(s: State, t: Task)
    requires Blocked(s)
    ensures Step(s, Submit(t)) == Next(s.(queue := s.queue + [t]), Quiet)
  {
  }

  // ------------------------------------------------------------ exchange

  lemma HexIdIsField(id: string)
    requires IsHexId(id)
    ensures IsField(id)
  {
    assert forall i :: 0 <= i < |id| ==> id[i] != Bar && id[i] != '\n';
  }

  /** A task dispatched on submission reaches the worker, whose reply is
      decoded by the host as a response to the task's id and delivers
      `pong` and the task's second argument to the task's caller. A task
      with fewer than two arguments is never answered. The arguments must
      hold no bar or newline, must not end with Python whitespace, and the
      echoed one must not end with JavaScript whitespace. */
  lemma ResponseReachesCaller(s: State, t: Task)
    requires Inv(s) && !Blocked(s)
    requires Delimited(t.args) && NoTrailing(Join(t.args, Bar), IsPySpace)
    requires |t.args| >= 2 ==> NoTrailing(t.args[1], IsJsSpace)
    ensures var o := Step(s, Submit(t));
      && o.Next? && |o.effects.sent| == 1
      && var req := o.effects.sent[0];
         var replies := Serve(Lines(o.effects.sent)[0]);
         && (|t.args| < 2 ==> replies == [])
         && (|t.args| >= 2 ==>
               && |replies| == 1
               && var o2 := Step(o.state, Receive(replies[0]));
                  && o2.Next?
                  && o2.effects.delivered == [Delivery(t.caller, ["pong", t.args[1]])]
                  && o2.state.threadCount == s.threadCount + |o2.effects.sent|)
  {
    var a := RunTask(s, t);
    var o := Step(s, Submit(t));
    assert o == Next(a.state, Effects(a.sent, [], false));
    var req := a.sent[0];
    assert Lines(a.sent)[0] == EncodeRequest(req.id, t.args);
    TaskAnswered(req.id, t.args);
    if |t.args| >= 2 {
      var data := ["pong", t.args[1]];
      AnswerDelivered(a.state, req.id, data, ResponseLine(req.id, data));
    }
  }

  /** The worker's side of a dispatched task: the request written under a
      hex id is answered, and the answer decodes at the host, whenever the
      arguments hold no delimiter and have no trailing whitespace that either
      end would trim. */
  lemma TaskAnswered(id: string, args: seq<string>)
    requires IsHexId(id)
    requires Delimited(args) && NoTrailing(Join(args, Bar), IsPySpace)
    requires |args| >= 2 ==> NoTrailing(args[1], IsJsSpace)
    ensures |args| < 2 ==> Serve(EncodeRequest(id, args)) == []
    ensures |args| >= 2 ==>
      && Serve(EncodeRequest(id, args)) == [ResponseLine(id, ["pong", args[1]])]
      && DecodeHost(ResponseLine(id, ["pong", args[1]])) == HostMessage(id, Some("response"), ["pong", args[1]])
  {
    HexIdIsField(id);
    RequestIntact(id, args);
    if |args| >= 2 {
      PongIntact(id, args[1]);
    }
    WorkerAnswers(id, args);
  }

  /** A response line for an id in flight hands its data to that id's caller
      and frees its slot. */
  lemma AnswerDelivered(s: State, id: string, data: seq<string>, message: string)
    requires id in s.resolveMap
    requires DecodeHost(message) == HostMessage(id, Some("response"), data)
    ensures var o := Step(s, Receive(message));
      && o.Next?
      && o.effects.delivered == [Delivery(s.resolveMap[id], data)]
      && o.state.threadCount == s.threadCount - 1 + |o.effects.sent|
  {
  }
}

=== FILE: protocol.dfy ===
/**
  The line protocol between the host (src/js-python.ts) and the worker
  (py-test.py). The host writes `id|arg1|...|argn` plus a newline; the worker
  answers `id|response|pong|arg2` and announces itself with `0|ready|`.
 */
module Protocol {
  import opened Text

  datatype Option<T> = None | Some(value: T)

  /** A line as the host destructures it: `[id, type, ...data]`. `kind` is
      None when the trimmed line holds no `|`, where JavaScript leaves `type`
      undefined. */
  datatype HostMessage = HostMessage(id: string, kind: Option<string>, data: seq<string>)

  /** A request as the worker holds it: the popped first field and the
      remaining fields (`kwargs`). */
  datatype WorkerRequest = WorkerRequest(id: string, kwargs: seq<string>)

  /** A value that travels through the protocol unchanged: no delimiter, no
      newline, and no whitespace at either end for either runtime. */
  predicate IsField(f: string)
  {
    Bar !in f && '\n' !in f && Unpadded(f, IsJsSpace) && Unpadded(f, IsPySpace)
  }

  predicate AllFields(fs: seq<string>)
  {
    forall i :: 0 <= i < |fs| ==> IsField(fs[i])
  }

  /** Fields the delimiters cannot break apart: no bar and no newline. Unlike
      `IsField`, whitespace is allowed, so only the ends of a whole line are
      at the mercy of trimming. */
  predicate Delimited(fs: seq<string>)
  {
    forall i :: 0 <= i < |fs| ==> Bar !in fs[i] && '\n' !in fs[i]
  }

  // ---------------------------------------------------------------- host side

  /** The request line the host writes for a task: `[id, ...args].join('|') + '\n'`. */
  function EncodeRequest(id: string, args: seq<string>): (line: string)
    ensures |line| > 0 && line[|line| - 1] == '\n'
    ensures Bar !in id && (forall i :: 0 <= i < |args| ==> Bar !in args[i]) ==>
      Split(line[..|line| - 1], Bar) == [id] + args
  {
    var fields := [id] + args;
    var line := Join(fields, Bar) + "\n";
    assert line[..|line| - 1] == Join(fields, Bar);
    assert Bar !in id && (forall i :: 0 <= i < |args| ==> Bar !in args[i]) ==>
      Split(Join(fields, Bar), Bar) == fields by {
      if Bar !in id && (forall i :: 0 <= i < |args| ==> Bar !in args[i]) {
        assert forall i :: 1 <= i < |fields| ==> fields[i] == args[i - 1];
        SplitJoin(fields, Bar);
      }
    }
    line
  }

  /** The host's reading of one stdout chunk: trim, then split on `|` into
      id, type and the remaining data. */
  function DecodeHost(message: string): (m: HostMessage)
    ensures m.kind.None? <==> Bar !in JsTrim(message)
    ensures m.kind.None? ==> m.id == JsTrim(message) && m.data == []
    ensures m.kind.Some? ==> Join([m.id, m.kind.value] + m.data, Bar) == JsTrim(message)
    ensures Bar !in m.id
    ensures m.kind.Some? ==> Bar !in m.kind.value && forall i :: 0 <= i < |m.data| ==> Bar !in m.data[i]
  {
    var line := JsTrim(message);
    var fields := Split(line, Bar);
    JoinSplit(line, Bar);
    if |fields| == 1 then
      HostMessage(fields[0], None, [])
    else
      assert [fields[0], fields[1]] + fields[2..] == fields;
      assert forall i :: 0 <= i < |fields[2..]| ==> fields[2..][i] == fields[i + 2];
      assert Bar in line by {
        assert line == fields[0] + [Bar] + Join(fields[1..], Bar);
        assert line[|fields[0]|] == Bar;
      }
      HostMessage(fields[0], Some(fields[1]), fields[2..])
  }

  // -------------------------------------------------------------- worker side

  predicate EndsWithNewline(s: string)
  {
    |s| > 0 && s[|s| - 1] == '\n'
  }

  /** One turn of the worker's read loop: the character joins the buffer;
      a buffer that then ends in a newline is handed on without it, and the
      buffer starts over. */
  function Feed(buff: string, c: char): (r: (string, Option<string>))
    ensures c == '\n' <==> r.1.Some?
    ensures r.1.Some? ==> r.0 == "" && r.1.value == buff
    ensures r.1.None? ==> r.0 == buff + [c]
  {
    var b := buff + [c];
    if EndsWithNewline(b) then
      assert b[..|b| - 1] == buff;
      ("", Some(b[..|b| - 1]))
    else (b, None)
  }

  /** Lines terminated by newlines, one after the other. */
  function Unlines(lines: seq<string>): string
  {
    if |lines| == 0 then "" else lines[0] + "\n" + Unlines(lines[1..])
  }

  /** The read loop run over `input` from buffer `buff`: the complete lines
      found and the buffer left over. Nothing is lost or invented: the lines,
      each with its newline, followed by the leftover are exactly the buffer
      followed by the input. */
  function Frame(buff: string, input: string): (r: (string, seq<string>))
    ensures '\n' !in buff ==> Unlines(r.1) + r.0 == buff + input
    ensures '\n' !in buff ==> '\n' !in r.0
    ensures '\n' !in buff ==> forall i :: 0 <= i < |r.1| ==> '\n' !in r.1[i]
    decreases |input|
  {
    if |input| == 0 then (buff, [])
    else
      var step := Feed(buff, input[0]);
      var rest := Frame(step.0, input[1..]);
      var r := if step.1.Some? then (rest.0, [buff] + rest.1) else rest;
      assert '\n' !in buff ==>
        (Unlines(r.1) + r.0 == buff + input && '\n' !in r.0 &&
         forall i :: 0 <= i < |r.1| ==> '\n' !in r.1[i]) by {
        if '\n' !in buff {
          assert input == [input[0]] + input[1..];
          FrameStep(buff, input[0], input[1..], rest);
        }
      }
      r
  }

  /** One character of the read loop, given that the rest of the input is
      framed faithfully from the buffer that character leaves. */
  lemma FrameStep(buff: string, c: char, more: string, rest: (string, seq<string>))
    requires '\n' !in buff
    requires Unlines(rest.1) + rest.0 == Feed(buff, c).0 + more
    requires '\n' !in rest.0 && forall i :: 0 <= i < |rest.1| ==> '\n' !in rest.1[i]
    ensures var r := if Feed(buff, c).1.Some? then (rest.0, [buff] + rest.1) else rest;
      && Unlines(r.1) + r.0 == buff + ([c] + more)
      && '\n' !in r.0
      && forall i :: 0 <= i < |r.1| ==> '\n' !in r.1[i]
  {
    if c == '\n' {
      UnlinesCons(buff, rest.1, rest.0);
      assert "" + more == more;
      assert "\n" == [c];
      var lines := [buff] + rest.1;
      forall i | 0 <= i < |lines|
        ensures '\n' !in lines[i]
      {
        if i > 0 {
          assert lines[i] == rest.1[i - 1];
        }
      }
    } else {
      assert buff + [c] + more == buff + ([c] + more);
    }
  }

  /** A first line, then the others, then whatever is left. */
  lemma UnlinesCons(line: string, rest: seq<string>, left: string)
    ensures Unlines([line] + rest) + left == line + "\n" + (Unlines(rest) + left)
  {
    assert ([line] + rest)[1..] == rest;
  }

  /** Input with no newline only grows the buffer. */
  lemma {:induction false} FrameNoNewline(buff: string, s: string)
    requires '\n' !in s
    ensures Frame(buff, s) == (buff + s, [])
    decreases |s|
  {
    if |s| > 0 {
      assert s == [s[0]] + s[1..];
      assert s[0] != '\n' && '\n' !in s[1..];
      assert Feed(buff, s[0]) == (buff + [s[0]], None);
      assert Frame(buff, s) == Frame(buff + [s[0]], s[1..]);
      FrameNoNewline(buff + [s[0]], s[1..]);
      assert buff + [s[0]] + s[1..] == buff + s;
    } else {
      assert buff + s == buff;
    }
  }

  /** The first newline ends the current line; the loop then carries on
      from an empty buffer. */
  lemma {:induction false} FrameThroughNewline(buff: string, s: string, more: string)
    requires '\n' !in s
    ensures Frame(buff, s + "\n" + more) == (Frame("", more).0, [buff + s] + Frame("", more).1)
    decreases |s|
  {
    var input := s + "\n" + more;
    if |s| == 0 {
      assert input[0] == '\n' && input[1..] == more;
      assert Feed(buff, input[0]) == ("", Some(buff));
      assert buff + s == buff;
    } else {
      assert input[0] == s[0] && s[0] != '\n';
      assert Feed(buff, input[0]) == (buff + [s[0]], None);
      assert input[1..] == s[1..] + "\n" + more;
      FrameThroughNewline(buff + [s[0]], s[1..], more);
      assert buff + [s[0]] + s[1..] == buff + s;
    }
  }

  /** Newline-free lines written one after another are read back as exactly
      those lines, with an empty buffer left. */
  lemma {:induction false} FrameLines(lines: seq<string>)
    requires forall i :: 0 <= i < |lines| ==> '\n' !in lines[i]
    ensures Frame("", Unlines(lines)) == ("", lines)
    decreases |lines|
  {
    if |lines| > 0 {
      FrameLines(lines[1..]);
      FrameThroughNewline("", lines[0], Unlines(lines[1..]));
      assert [lines[0]] + lines[1..] == lines;
      assert "" + lines[0] == lines[0];
    }
  }

  /** The worker's parse of a framed line: strip, split on `|`, pop the id. */
  function ParseRequest(line: string): (req: WorkerRequest)
    ensures Join([req.id] + req.kwargs, Bar) == PyStrip(line)
    ensures Bar !in req.id
    ensures forall i :: 0 <= i < |req.kwargs| ==> Bar !in req.kwargs[i]
  {
    var fields := Split(PyStrip(line), Bar);
    JoinSplit(PyStrip(line), Bar);
    assert [fields[0]] + fields[1..] == fields;
    assert forall i :: 0 <= i < |fields[1..]| ==> fields[1..][i] == fields[i + 1];
    WorkerRequest(fields[0], fields[1..])
  }

  /** The line `send_response` prints for `data`: with at least one datum,
      the id, the type `response` and the data joined by bars, as the host
      will split it, and a newline. */
  function ResponseLine(id: string, data: seq<string>): (line: string)
    ensures |line| > 0 && line[|line| - 1] == '\n'
    ensures |data| >= 1 ==> line == Join([id, "response"] + data, Bar) + "\n"
  {
    var line := id + [Bar] + "response" + [Bar] + Join(data, Bar) + "\n";
    assert |data| >= 1 ==> line == Join([id, "response"] + data, Bar) + "\n" by {
      if |data| >= 1 {
        PiecesJoined(id, "response", data);
      }
    }
    line
  }

  /** The line the worker prints once it has started. */
  const ReadyLine: string := "0|ready|\n"

  /** What a worker thread prints for a request: `pong` and the second
      argument, or nothing when `kwargs[1]` raises IndexError. */
  function Respond(req: WorkerRequest): (out: Option<string>)
    ensures out.Some? <==> |req.kwargs| >= 2
    ensures out.Some? ==> out.value == ResponseLine(req.id, ["pong", req.kwargs[1]])
    ensures out.Some? && ReplyIntact(req.id, ["pong", req.kwargs[1]]) ==>
      DecodeHost(out.value) == HostMessage(req.id, Some("response"), ["pong", req.kwargs[1]])
  {
    if |req.kwargs| < 2 then None
    else
      var data := ["pong", req.kwargs[1]];
      assert ReplyIntact(req.id, data) ==>
        DecodeHost(ResponseLine(req.id, data)) == HostMessage(req.id, Some("response"), data) by {
        if ReplyIntact(req.id, data) {
          ResponseRoundTrip(req.id, data);
        }
      }
      Some(ResponseLine(req.id, data))
  }

  /** The worker's replies, in order, to the framed lines. */
  function Replies(lines: seq<string>): (out: seq<string>)
    ensures |out| <= |lines|
  {
    if |lines| == 0 then []
    else
      var first := Respond(ParseRequest(lines[0]));
      (if first.Some? then [first.value] else []) + Replies(lines[1..])
  }

  /** The worker's replies to everything the host wrote since it started:
      the read loop frames the input into lines from an empty buffer and
      answers each complete line in turn. Until a newline arrives the
      buffered text gets no answer. */
  function Serve(input: string): (out: seq<string>)
    ensures '\n' !in input ==> out == []
  {
    assert '\n' !in input ==> Frame("", input).1 == [] by {
      if '\n' !in input {
        FrameNoNewline("", input);
      }
    }
    Replies(Frame("", input).1)
  }

  /** Newline-terminated lines written to the worker are answered line by
      line, in order, exactly as `Replies` answers them. */
  lemma ServeLines(lines: seq<string>)
    requires forall i :: 0 <= i < |lines| ==> '\n' !in lines[i]
    ensures Serve(Unlines(lines)) == Replies(lines)
  {
    FrameLines(lines);
  }

  // ------------------------------------------------------------- round trips

  lemma KeywordsAreFields()
    ensures IsField("response") && IsField("pong") && IsField("0") && IsField("ready") && IsField("")
  {
  }

  /** The joined fields of a request are free of newlines and unpadded. */
  lemma JoinedFields(fields: seq<string>)
    requires AllFields(fields)
    ensures '\n' !in Join(fields, Bar)
    ensures Unpadded(Join(fields, Bar), IsJsSpace) && Unpadded(Join(fields, Bar), IsPySpace)
  {
    JoinAvoids(fields, Bar, '\n');
    JoinUnpadded(fields, Bar, IsJsSpace);
    JoinUnpadded(fields, Bar, IsPySpace);
  }

  /** A request line written by the host is framed by the worker as one line
      and parsed back into the same id and arguments. */
  lemma RequestRoundTrip(id: string, args: seq<string>)
    requires Delimited([id] + args)
    requires Unpadded(Join([id] + args, Bar), IsPySpace)
    ensures Frame("", EncodeRequest(id, args)) == ("", [Join([id] + args, Bar)])
    ensures ParseRequest(Join([id] + args, Bar)) == WorkerRequest(id, args)
  {
    var fields := [id] + args;
    JoinAvoids(fields, Bar, '\n');
    FrameOneLine(Join(fields, Bar));
    ParseJoined(fields);
    assert fields[1..] == args;
  }

  /** Whitespace inside the line survives the worker's `strip`: an argument
      ending in a blank comes back with it. */
  lemma InnerPaddingKept(id: string, arg: string, last: string)
    requires Delimited([id, arg + " ", last])
    requires |id| > 0 && !IsPySpace(id[0]) && |last| > 0 && !IsPySpace(last[|last| - 1])
    ensures ParseRequest(Join([id, arg + " ", last], Bar)) == WorkerRequest(id, [arg + " ", last])
  {
    var fields := [id, arg + " ", last];
    var j := Join(fields, Bar);
    assert j == id + [Bar] + ((arg + " ") + [Bar] + last) by {
      assert [id, arg + " "] + [last] == fields;
      assert Join([last], Bar) == last;
      JoinTwoHeads(id, arg + " ", [last]);
    }
    assert j[0] == id[0] && j[|j| - 1] == last[|last| - 1];
    RequestRoundTrip(id, [arg + " ", last]);
  }

  /** One newline-free line followed by its newline frames as that line. */
  lemma FrameOneLine(j: string)
    requires '\n' !in j
    ensures Frame("", j + "\n") == ("", [j])
  {
    FrameThroughNewline("", j, "");
    assert j + "\n" + "" == j + "\n";
    assert "" + j == j;
    assert Frame("", "") == ("", []);
    assert [j] + [] == [j];
  }

  /** The worker parses joined fields back into the first field and the rest. */
  lemma ParseJoined(fields: seq<string>)
    requires |fields| >= 1 && Delimited(fields)
    requires Unpadded(Join(fields, Bar), IsPySpace)
    ensures ParseRequest(Join(fields, Bar)) == WorkerRequest(fields[0], fields[1..])
  {
    var j := Join(fields, Bar);
    assert PyStrip(j) == j;
    SplitJoin(fields, Bar);
  }

  /** A line of at least two well-formed fields, joined and terminated,
      decodes at the host to its first field as id, its second as type and
      the rest as data. */
  lemma DecodeJoined(fields: seq<string>)
    requires |fields| >= 2 && Delimited(fields)
    requires Unpadded(Join(fields, Bar), IsJsSpace)
    ensures DecodeHost(Join(fields, Bar) + "\n") == HostMessage(fields[0], Some(fields[1]), fields[2..])
  {
    var line := Join(fields, Bar) + "\n";
    assert JsTrim(line) == Join(fields, Bar) by {
      TrimNewline(Join(fields, Bar), IsJsSpace);
    }
    assert Split(JsTrim(line), Bar) == fields by {
      SplitJoin(fields, Bar);
    }
    DecodeSplit(line);
  }

  /** A line whose trimmed form splits into at least two fields decodes to
      the first as id, the second as type and the rest as data. */
  lemma DecodeSplit(message: string)
    requires |Split(JsTrim(message), Bar)| >= 2
    ensures var f := Split(JsTrim(message), Bar);
      DecodeHost(message) == HostMessage(f[0], Some(f[1]), f[2..])
  {
  }

  /** A reply for `id` carrying `data` survives the host's split on bars and
      its trim: no field holds a bar or a newline, and the joined reply
      neither starts nor ends with JavaScript whitespace. */
  predicate ReplyIntact(id: string, data: seq<string>)
  {
    Delimited([id] + data) && Unpadded(Join([id, "response"] + data, Bar), IsJsSpace)
  }

  /** A reply line decodes at the host to its id, type `response` and its
      data whenever the reply is intact. */
  lemma ResponseRoundTrip(id: string, data: seq<string>)
    requires |data| >= 1 && ReplyIntact(id, data)
    ensures DecodeHost(ResponseLine(id, data)) == HostMessage(id, Some("response"), data)
  {
    var fields := [id, "response"] + data;
    assert Delimited(fields) by {
      KeywordsAreFields();
      forall i | 0 <= i < |fields|
        ensures Bar !in fields[i] && '\n' !in fields[i]
      {
        if i != 1 {
          assert fields[i] == ([id] + data)[if i == 0 then 0 else i - 1];
        }
      }
    }
    DecodeJoined(fields);
    assert fields[2..] == data;
  }

  /** A request whose id is a field and whose arguments are delimited and do
      not end with Python whitespace is intact for the worker. */
  lemma RequestIntact(id: string, args: seq<string>)
    requires IsField(id) && Delimited(args) && NoTrailing(Join(args, Bar), IsPySpace)
    ensures Delimited([id] + args) && Unpadded(Join([id] + args, Bar), IsPySpace)
  {
    var fields := [id] + args;
    assert forall i :: 1 <= i < |fields| ==> fields[i] == args[i - 1];
    if |args| > 0 {
      assert fields[1..] == args;
      assert Join(fields, Bar) == id + [Bar] + Join(args, Bar);
      UnpaddedAfterHead(id, Join(args, Bar), Bar, IsPySpace);
    }
  }

  /** The `pong` reply to a field id is intact when the echoed argument holds
      no delimiter and does not end with JavaScript whitespace. */
  lemma PongIntact(id: string, arg: string)
    requires IsField(id) && Bar !in arg && '\n' !in arg && NoTrailing(arg, IsJsSpace)
    ensures ReplyIntact(id, ["pong", arg])
  {
    KeywordsAreFields();
    var fields := [id, "pong", arg];
    assert forall i :: 0 <= i < |fields| ==> Bar !in fields[i] && '\n' !in fields[i];
    assert Join(["pong", arg], Bar) == "pong" + [Bar] + arg by {
      assert ["pong", arg][1..] == [arg];
    }
    UnpaddedAfterHead("pong", arg, Bar, IsJsSpace);
    UnpaddedAfterHead("response", Join(["pong", arg], Bar), Bar, IsJsSpace);
    JoinTwoHeads(id, "response", ["pong", arg]);
    UnpaddedAfterHead(id, "response" + [Bar] + Join(["pong", arg], Bar), Bar, IsJsSpace);
  }

  lemma JoinTwoHeads(a: string, b: string, data: seq<string>)
    requires |data| >= 1
    ensures Join([a, b] + data, Bar) == a + [Bar] + (b + [Bar] + Join(data, Bar))
  {
    var fields := [a, b] + data;
    assert Join(fields[1..], Bar) == b + [Bar] + Join(data, Bar) by {
      assert fields[1..] == [b] + data;
      assert fields[1..][1..] == data;
    }
    assert Join(fields, Bar) == a + [Bar] + Join(fields[1..], Bar);
  }

  /** An id, a keyword and the joined data, each followed by a bar, are the
      three joined together. */
  lemma PiecesJoined(id: string, keyword: string, data: seq<string>)
    requires |data| >= 1
    ensures id + [Bar] + keyword + [Bar] + Join(data, Bar) == Join([id, keyword] + data, Bar)
  {
    var tail := Join(data, Bar);
    JoinTwoHeads(id, keyword, data);
    var head := id + [Bar];
    Regroup(head + keyword, [Bar], tail);
    Regroup(head, keyword, [Bar] + tail);
    Regroup(keyword, [Bar], tail);
  }

  /** The readiness line decodes at the host to id "0", type `ready` and one
      empty data field. */
  lemma ReadyLineDecodes()
    ensures DecodeHost(ReadyLine) == HostMessage("0", Some("ready"), [""])
  {
    KeywordsAreFields();
    var fields := ["0", "ready", ""];
    assert fields[1..] == ["ready", ""];
    assert fields[1..][1..] == [""];
    assert Join(fields, Bar) + "\n" == ReadyLine;
    assert fields[2..] == [""];
    JoinedFields(fields);
    DecodeJoined(fields);
  }

  /** A request the host writes, intact for the worker, is answered with
      `pong` and its second argument, which the host decodes as a response to
      the same id when that reply is intact; an intact request with fewer than
      two arguments gets no answer at all. */
  lemma WorkerAnswers(id: string, args: seq<string>)
    requires Delimited([id] + args) && Unpadded(Join([id] + args, Bar), IsPySpace)
    ensures |args| >= 2 ==> Serve(EncodeRequest(id, args)) == [ResponseLine(id, ["pong", args[1]])]
    ensures |args| >= 2 && ReplyIntact(id, ["pong", args[1]]) ==>
      DecodeHost(ResponseLine(id, ["pong", args[1]])) == HostMessage(id, Some("response"), ["pong", args[1]])
    ensures |args| < 2 ==> Serve(EncodeRequest(id, args)) == []
  {
    var line := Join([id] + args, Bar);
    assert Serve(EncodeRequest(id, args)) == Replies([line])
      && ParseRequest(line) == WorkerRequest(id, args) by {
      RequestRoundTrip(id, args);
    }
    var reply := Respond(WorkerRequest(id, args));
    assert Serve(EncodeRequest(id, args)) == if reply.Some? then [reply.value] else [] by {
      RepliesOne(line);
    }
    if |args| >= 2 {
      var data := ["pong", args[1]];
      assert reply == Some(ResponseLine(id, data));
    }
  }

  /** A single framed line gets the worker's response to it, if any. */
  lemma RepliesOne(line: string)
    ensures var reply := Respond(ParseRequest(line));
      Replies([line]) == if reply.Some? then [reply.value] else []
  {
    assert [line][1..] == [];
  }
}

=== FILE: ready_fix.dfy ===
/**
  The ready loop of src/js-python.ts compares its counter with
  `min(maxThreads, queue.length)` while every iteration shortens the queue,
  so an idle worker that becomes ready with L tasks waiting receives only
  min(maxThreads, ceil(L/2)) of them. This module exhibits that on a
  concrete state and gives the loop with its bound fixed on entry, which
  fills every free slot.
 */
module ReadyFix {
  import opened Protocol
  import opened Dispatcher
  import opened Properties

  /** As written: four tasks, three slots, an idle worker. The ready line
      dispatches two tasks and leaves a slot free while two tasks wait. */
  lemma ReadyLeavesSlotFree(t1: Task, t2: Task, t3: Task, t4: Task)
    ensures var s := State([t1, t2, t3, t4], false, 0, map[], 3);
      var r := HandleLine(s, ReadyLine);
      && r.Next?
      && |r.effects.sent| == 2
      && r.state.queue == [t3, t4]
      && r.state.threadCount < r.state.maxThreads
  {
    var s := State([t1, t2, t3, t4], false, 0, map[], 3);
    ReadyLineDecodes();
    ReadyFromIdle(s, ReadyLine);
    assert Min(3, (4 + 1) / 2) == 2;
    assert s.queue[2..] == [t3, t4];
  }

  /** The loop with its trip count `n` fixed before the first iteration. */
  function DrainFixed(s: State, n: nat): (r: Admission)
    ensures r.state.maxThreads == s.maxThreads && r.state.ready == s.ready
    ensures Inv(s) ==> Inv(r.state)
    ensures r.state.threadCount == s.threadCount + |r.sent|
    ensures |r.state.queue| + |r.sent| == |s.queue|
    ensures !s.ready ==> r.sent == []
    decreases n
  {
    if n == 0 || |s.queue| == 0 then
      Admission(s, [])
    else
      var a := RunTask(s.(queue := s.queue[1..]), s.queue[0]);
      var rest := DrainFixed(a.state, n - 1);
      Admission(rest.state, a.sent + rest.sent)
  }

  /** The `ready` branch with the corrected loop. */
  function OnReadyFixed(s: State): (r: Admission)
    ensures r.state.ready && r.state.maxThreads == s.maxThreads
    ensures Inv(s) ==> Inv(r.state)
    ensures r.state.threadCount == s.threadCount + |r.sent|
    ensures |r.state.queue| + |r.sent| == |s.queue|
  {
    DrainFixed(s.(ready := true), Min(s.maxThreads, |s.queue|))
  }

  /** n iterations of the corrected loop dispatch one task per free slot, up
      to n; an iteration without a free slot puts its task back. */
  lemma {:induction false} DrainFixedCount(s: State, n: nat)
    requires Inv(s) && s.ready && n <= |s.queue|
    ensures |DrainFixed(s, n).sent| == Min(s.maxThreads - s.threadCount, n)
    decreases n
  {
    if n > 0 {
      var shifted := s.(queue := s.queue[1..]);
      var a := RunTask(shifted, s.queue[0]);
      RunTaskKeepsInv(shifted, s.queue[0]);
      DrainFixedCount(a.state, n - 1);
    }
  }

  /** Corrected, from any consistent state: a ready line dispatches one
      queued task per free slot, so that afterwards either nothing waits or
      every slot is taken. */
  lemma ReadyFixedFillsFreeSlots(s: State)
    requires Inv(s)
    ensures var r := OnReadyFixed(s);
      && |r.sent| == Min(s.maxThreads - s.threadCount, |s.queue|)
      && (r.state.queue == [] || r.state.threadCount == r.state.maxThreads)
  {
    DrainFixedCount(s.(ready := true), Min(s.maxThreads, |s.queue|));
  }

  /** `processMessage` with the corrected ready loop; every other line is
      handled as before. */
  function HandleLineFixed(s: State, message: string): (r: Outcome)
    ensures DecodeHost(message).kind == Some("ready") ==>
      && r.Next? && r.state.ready && r.effects.delivered == [] && !r.effects.respawn
      && (Inv(s) ==> Inv(r.state) && (r.state.queue == [] || r.state.threadCount == r.state.maxThreads))
    ensures DecodeHost(message).kind != Some("ready") ==> r == HandleLine(s, message)
  {
    if DecodeHost(message).kind == Some("ready") then
      var a := OnReadyFixed(s);
      assert Inv(s) ==> (a.state.queue == [] || a.state.threadCount == a.state.maxThreads) by {
        if Inv(s) {
          ReadyFixedFillsFreeSlots(s);
        }
      }
      Next(a.state, Effects(a.sent, [], false))
    else
      HandleLine(s, message)
  }

  /** Running the corrected loop for n iterations with n free slots and at
      least n tasks queued dispatches the first n tasks in order. */
  lemma {:induction false} DrainFixedRun(s: State, n: nat)
    requires Inv(s) && s.ready
    requires s.threadCount + n <= s.maxThreads && n <= |s.queue|
    ensures var r := DrainFixed(s, n);
      && |r.sent| == n
      && r.state.queue == s.queue[n..]
      && r.state.threadCount == s.threadCount + n
      && forall j :: 0 <= j < n ==> r.sent[j].args == s.queue[j].args
    decreases n
  {
    if n > 0 {
      var shifted := s.(queue := s.queue[1..]);
      var a := RunTask(shifted, s.queue[0]);
      assert !Blocked(shifted);
      RunTaskKeepsInv(shifted, s.queue[0]);
      DrainFixedRun(a.state, n - 1);
      var rest := DrainFixed(a.state, n - 1);
      assert DrainFixed(s, n) == Admission(rest.state, a.sent + rest.sent);
      SliceTail(s.queue, n);
      forall j | 0 <= j < n
        ensures (a.sent + rest.sent)[j].args == s.queue[j].args
      {
        if j > 0 {
          assert (a.sent + rest.sent)[j] == rest.sent[j - 1];
          assert a.state.queue[j - 1] == s.queue[j];
        }
      }
    }
  }

  /** Corrected: a ready line reaching an idle dispatcher with L tasks
      queued dispatches min(maxThreads, L) of them, head first, so that
      afterwards either nothing waits or every slot is taken. */
  lemma ReadyFixedFromIdle(s: State)
    requires Inv(s) && s.threadCount == 0
    ensures var k := Min(s.maxThreads, |s.queue|);
      var r := OnReadyFixed(s);
      && |r.sent| == k
      && r.state.queue == s.queue[k..]
      && r.state.threadCount == k
      && (r.state.queue == [] || r.state.threadCount == r.state.maxThreads)
      && forall j :: 0 <= j < k ==> r.sent[j].args == s.queue[j].args
  {
    DrainFixedRun(s.(ready := true), Min(s.maxThreads, |s.queue|));
  }

  /** The corrected loop still takes min(maxThreads, L) tasks, so once the
      slots fill part-way it moves the rest of what it takes to the tail:
      two slots with one held and A, B, C queued give A dispatched and C, B
      waiting. */
  lemma FixedLoopRotatesRest(a: Task, b: Task, c: Task, held: map<string, Caller>)
    ensures var r := OnReadyFixed(State([a, b, c], false, 1, held, 2));
      |r.sent| == 1 && r.sent[0].args == a.args && r.state.queue == [c, b]
  {
    var s := State([a, b, c], true, 1, held, 2);
    var a1 := RunTask(s.(queue := s.queue[1..]), s.queue[0]);
    assert s.queue[1..] == [b, c];
    var s1 := a1.state;
    assert s1.queue == [b, c] && s1.threadCount == 2;
    var a2 := RunTask(s1.(queue := s1.queue[1..]), s1.queue[0]);
    assert s1.queue[1..] == [c];
    assert a2.state.queue == [c, b] && a2.sent == [];
    assert DrainFixed(a2.state, 0) == Admission(a2.state, []);
    assert DrainFixed(s1, 1) == Admission(a2.state, []);
    assert DrainFixed(s, 2) == Admission(a2.state, a1.sent);
  }

  /** Corrected, on the same four tasks and three slots: three are dispatched. */
  lemma ReadyFixedFillsSlots(t1: Task, t2: Task, t3: Task, t4: Task)
    ensures var s := State([t1, t2, t3, t4], false, 0, map[], 3);
      var r := OnReadyFixed(s);
      |r.sent| == 3 && r.state.queue == [t4] && r.state.threadCount == r.state.maxThreads
  {
    var s := State([t1, t2, t3, t4], false, 0, map[], 3);
    ReadyFixedFromIdle(s);
    assert s.queue[3..] == [t4];
  }
}

=== FILE: text.dfy ===
/**
  String primitives shared by the host (JavaScript) and the worker (Python):
  splitting and joining on a one-character separator, and trimming with each
  runtime's own notion of whitespace.
 */
module Text {

  /** The field delimiter of the line protocol. */
  const Bar: char := '|'

  /** `s.split(sep)` with a one-character separator. JavaScript's
      String.prototype.split and Python's str.split agree here: empty fields
      are kept and the empty string yields one empty field. */
  function Split(s: string, sep: char): (fields: seq<string>)
    ensures |fields| >= 1
    ensures forall i :: 0 <= i < |fields| ==> sep !in fields[i]
    decreases |s|
  {
    if |s| == 0 then [""]
    else
      var rest := Split(s[1..], sep);
      if s[0] == sep then [""] + rest
      else [[s[0]] + rest[0]] + rest[1..]
  }

  /** `fields.join(sep)` (JavaScript) or `sep.join(fields)` (Python). */
  function Join(fields: seq<string>, sep: char): string
  {
    if |fields| == 0 then ""
    else if |fields| == 1 then fields[0]
    else fields[0] + [sep] + Join(fields[1..], sep)
  }

  /** Concatenation of strings is associative. */
  lemma Regroup(a: string, b: string, c: string)
    ensures (a + b) + c == a + (b + c)
  {
  }

  /** Joining the fields of a split gives back the original string. */
  lemma {:induction false} JoinSplit(s: string, sep: char)
    ensures Join(Split(s, sep), sep) == s
    decreases |s|
  {
    if |s| > 0 {
      var rest := Split(s[1..], sep);
      JoinSplit(s[1..], sep);
      if s[0] == sep {
        assert s == [sep] + s[1..];
      } else {
        JoinCons(s[0], rest, sep);
        assert s == [s[0]] + s[1..];
      }
    }
  }

  /** Prepending a character to the first field prepends it to the join. */
  lemma JoinCons(c: char, fields: seq<string>, sep: char)
    requires |fields| >= 1
    ensures Join([[c] + fields[0]] + fields[1..], sep) == [c] + Join(fields, sep)
  {
    var g := [[c] + fields[0]] + fields[1..];
    assert g[1..] == fields[1..];
  }

  /** A string without the separator is a single field. */
  lemma {:induction false} SplitNoSep(s: string, sep: char)
    requires sep !in s
    ensures Split(s, sep) == [s]
    decreases |s|
  {
    if |s| > 0 {
      SplitNoSep(s[1..], sep);
      assert s == [s[0]] + s[1..];
    }
  }

  /** Splitting `a + sep + b` yields `a` followed by the fields of `b`. */
  lemma {:induction false} SplitAfterField(a: string, b: string, sep: char)
    requires sep !in a
    ensures Split(a + [sep] + b, sep) == [a] + Split(b, sep)
    decreases |a|
  {
    var s := a + [sep] + b;
    if |a| == 0 {
      assert s[1..] == b;
    } else {
      assert s[1..] == a[1..] + [sep] + b;
      SplitAfterField(a[1..], b, sep);
      assert [a[0]] + a[1..] == a;
    }
  }

  /** Splitting the join of separator-free fields gives back the fields. */
  lemma {:induction false} SplitJoin(fields: seq<string>, sep: char)
    requires |fields| >= 1
    requires forall i :: 0 <= i < |fields| ==> sep !in fields[i]
    ensures Split(Join(fields, sep), sep) == fields
    decreases |fields|
  {
    if |fields| == 1 {
      SplitNoSep(fields[0], sep);
    } else {
      SplitJoin(fields[1..], sep);
      SplitAfterField(fields[0], Join(fields[1..], sep), sep);
      assert [fields[0]] + fields[1..] == fields;
    }
  }

  /** A character that is neither the separator nor in any field is not in the join. */
  lemma {:induction false} JoinAvoids(fields: seq<string>, sep: char, c: char)
    requires c != sep
    requires forall i :: 0 <= i < |fields| ==> c !in fields[i]
    ensures c !in Join(fields, sep)
    decreases |fields|
  {
    if |fields| > 1 {
      JoinAvoids(fields[1..], sep, c);
    }
  }

  /** Whitespace removed by JavaScript's String.prototype.trim: the
      WhiteSpace and LineTerminator code points of ECMAScript. */
  predicate IsJsSpace(c: char)
  {
    var n := c as int;
    (0x09 <= n <= 0x0D) || n == 0x20 || n == 0xA0 || n == 0x1680
    || (0x2000 <= n <= 0x200A) || n == 0x2028 || n == 0x2029
    || n == 0x202F || n == 0x205F || n == 0x3000 || n == 0xFEFF
  }

  /** Whitespace removed by Python's str.strip() without arguments
      (the characters for which str.isspace holds). */
  predicate IsPySpace(c: char)
  {
    var n := c as int;
    (0x09 <= n <= 0x0D) || (0x1C <= n <= 0x20) || n == 0x85 || n == 0xA0
    || n == 0x1680 || (0x2000 <= n <= 0x200A) || n == 0x2028 || n == 0x2029
    || n == 0x202F || n == 0x205F || n == 0x3000
  }

  /** Neither end of `s` is whitespace in the sense of `ws`. */
  predicate Unpadded(s: string, ws: char -> bool)
  {
    |s| == 0 || (!ws(s[0]) && !ws(s[|s| - 1]))
  }

  /** The last character of `s`, if any, is not whitespace in the sense of `ws`. */
  predicate NoTrailing(s: string, ws: char -> bool)
  {
    |s| == 0 || !ws(s[|s| - 1])
  }

  /** A field that does not start with whitespace, joined to a tail that does
      not end with it, gives an unpadded line. */
  lemma UnpaddedAfterHead(head: string, tail: string, sep: char, ws: char -> bool)
    requires !ws(sep) && (|head| == 0 || !ws(head[0])) && NoTrailing(tail, ws)
    ensures Unpadded(head + [sep] + tail, ws)
    ensures NoTrailing(head + [sep] + tail, ws)
  {
    var line := head + [sep] + tail;
    assert line[0] == if |head| == 0 then sep else head[0];
    assert line[|line| - 1] == if |tail| == 0 then sep else tail[|tail| - 1];
  }

  /** Drops leading whitespace: the result is the suffix of `s` that starts
      at the first non-whitespace character. */
  function TrimStart(s: string, ws: char -> bool): (t: string)
    ensures |t| <= |s| && t == s[|s| - |t|..]
    ensures forall i :: 0 <= i < |s| - |t| ==> ws(s[i])
    ensures |t| == 0 || !ws(t[0])
    decreases |s|
  {
    if |s| > 0 && ws(s[0]) then
      var t := TrimStart(s[1..], ws);
      assert forall i :: 1 <= i < |s| - |t| ==> s[i] == s[1..][i - 1];
      t
    else s
  }

  /** Drops trailing whitespace: the result is the prefix of `s` that ends
      at the last non-whitespace character. */
  function TrimEnd(s: string, ws: char -> bool): (t: string)
    ensures |t| <= |s| && t == s[..|t|]
    ensures forall i :: |t| <= i < |s| ==> ws(s[i])
    ensures |t| == 0 || !ws(t[|t| - 1])
    decreases |s|
  {
    if |s| > 0 && ws(s[|s| - 1]) then
      var t := TrimEnd(s[..|s| - 1], ws);
      assert forall i :: |t| <= i < |s| - 1 ==> s[i] == s[..|s| - 1][i];
      t
    else s
  }

  /** Drops whitespace at both ends: the result starts and ends with
      non-whitespace, and an already unpadded string is kept as it is. */
  function Trim(s: string, ws: char -> bool): (t: string)
    ensures Unpadded(t, ws)
    ensures Unpadded(s, ws) ==> t == s
  {
    var head := TrimStart(s, ws);
    var t := TrimEnd(head, ws);
    assert |t| > 0 ==> t[0] == head[0];
    t
  }

  /** Trimming removes only whitespace, and only from the two ends: the
      result is a contiguous slice of `s` with whitespace before and after it. */
  lemma TrimPeels(s: string, ws: char -> bool)
    ensures exists a :: 0 <= a <= |s| && Peeled(s, s[a..], Trim(s, ws), ws)
  {
    var head := TrimStart(s, ws);
    var a := |s| - |head|;
    assert head == s[a..];
    assert Peeled(s, s[a..], Trim(s, ws), ws);
  }

  /** `rest` is what is left of `s` after a run of whitespace is removed
      from its front, and `t` is the front of `rest` left after a run of
      whitespace is removed from its back. */
  predicate Peeled(s: string, rest: string, t: string, ws: char -> bool)
  {
    && |t| <= |rest| <= |s|
    && rest == s[|s| - |rest|..] && t == rest[..|t|]
    && (forall i :: 0 <= i < |s| - |rest| ==> ws(s[i]))
    && (forall i :: |t| <= i < |rest| ==> ws(rest[i]))
  }

  /** `s.trim()` in JavaScript. */
  function JsTrim(s: string): string
  {
    Trim(s, IsJsSpace)
  }

  /** `s.strip()` in Python. */
  function PyStrip(s: string): string
  {
    Trim(s, IsPySpace)
  }

  /** Trimming an unpadded string followed by a newline gives back the string. */
  lemma TrimNewline(s: string, ws: char -> bool)
    requires Unpadded(s, ws) && ws('\n')
    ensures Trim(s + "\n", ws) == s
  {
    var x := s + "\n";
    if |s| == 0 {
      assert TrimStart(x, ws) == TrimStart(x[1..], ws);
      assert x[1..] == "";
    } else {
      assert TrimStart(x, ws) == x;
      assert x[..|x| - 1] == s;
      assert TrimEnd(x, ws) == TrimEnd(s, ws);
    }
  }

  /** Joining unpadded fields with a non-whitespace separator gives an
      unpadded string. */
  lemma {:induction false} JoinUnpadded(fields: seq<string>, sep: char, ws: char -> bool)
    requires !ws(sep)
    requires forall i :: 0 <= i < |fields| ==> Unpadded(fields[i], ws)
    ensures Unpadded(Join(fields, sep), ws)
    decreases |fields|
  {
    if |fields| > 1 {
      JoinUnpadded(fields[1..], sep, ws);
      var rest := Join(fields[1..], sep);
      var j := fields[0] + [sep] + rest;
      assert j[0] == if |fields[0]| > 0 then fields[0][0] else sep;
      assert j[|j| - 1] == if |rest| > 0 then rest[|rest| - 1] else sep;
    }
  }
}
